=== FILE: README.md ===
# UPS integration — a Dafny model

A model of the three pieces of sequential logic in the `ups_integration` Frappe app:

- **The shipment payload builder** (`UPSShipment.get_shipment_request` and helpers). It turns a shipment record and its addresses into the nested `ShipmentRequest` sent to the carrier. Five fixed tables map names to carrier codes: request options, services, package types, charge types and weight units.
- **The token cache** (`UPSSettings`). It covers API base URL selection and the rule for trusting a cached bearer token: it must have more than ten minutes left. It also covers storing a freshly issued token with expiry = `issued_at` (ms) + 1000·`expires_in` (s), and reading the client secret.
- **The client** (`UPSClient`). It covers `__enter__`/`__exit__`, choosing between the cached and a freshly created token, building the client-credentials token request, and saving a token only after a successful response. It also covers the `request` wrapper, which turns every failure into `None` plus one log entry titled by the first matching `except` clause.

Frappe's database, its password store and the `requests` library become plain values:

- a `Settings` record;
- a `Password` that is either stored or not;
- a network `HttpRequest -> Outcome` function;
- a `World` holding the settings, the error log and the requests sent.

Time is integer epoch milliseconds, and `now` is a parameter.

Files:

- `wrappers.dfy`: `Option` and dict `get`.
- `text.dfy`: Python truthiness, `str(None)`, ASCII `upper` and the filter used for address lines.
- `json.dfy`: a JSON tree keyed by an enumeration of field names.
- `frappe.dfy`: password storage and the log entry.
- `shipment_tables.dfy`: the five lookup tables.
- `ups_settings.dfy`: `UPSSettings`.
- `requests_model.dfy`: the exception hierarchy of `requests`, responses and sessions.
- `ups_client.dfy`: `UPSClient`.
- `ups_shipment.dfy`: the payload builder.
- `shipment_reader.dfy`: a reader for the payload and an independent statement of what a shipment should tell the carrier. The round-trip lemma `ReadBackBuiltRequest` connects the builder to both.

Behaviour worth noting (the model follows the code):

- **Lookup misses.** A table lookup that misses puts JSON `null` under its key: `dict.get` returns `None`. Only `Description` and `PostalCode` are left out when empty.
- **Token failure.** A token that cannot be obtained does not abort `__enter__`. The session is authorised with `"Bearer None"` (`UpsClient.EnterSurvivesTokenFailure`).
- **Escaping exceptions.** Not every failure is absorbed. A `BaseException` that is not an `Exception` gets past `except Exception`. A token response without `issued_at` or `expires_in` makes `int(None)` raise `TypeError` out of `__enter__`.
- **Session release.** When `__enter__` raises, the with statement does not call `__exit__`, so the session it opened stays open (`UpsClient.Enter`).

## Model

| member | source | states |
|---|---|---|
| ShipmentTables.RequestOptionCode | ups_integration/ups_integration/doctype/ups_shipment/ups_shipment.py:9-12 | a code exists exactly for the two listed validation modes, and it is the table's entry; they map to "validate" and "nonvalidate" |
| ShipmentTables.ServiceCode | ups_integration/ups_integration/doctype/ups_shipment/ups_shipment.py:14-45 | a code exists exactly for the listed services, and it is the table's entry for the service; "Ground" is "03" and "UPS Standard" is "11" |
| ShipmentTables.PackageTypeCode | ups_integration/ups_integration/doctype/ups_shipment/ups_shipment.py:47-71 | a code exists exactly for the listed package types, and it is the table's entry for the type; "Customer Supplied Package" is "02" and "Small Express Box" is "2a" |
| ShipmentTables.ChargeTypeCode | ups_integration/ups_integration/doctype/ups_shipment/ups_shipment.py:73-77 | a code exists exactly for the three charge types, and it is the table's entry: 01, 02 and 03 |
| ShipmentTables.WeightUomCode | ups_integration/ups_integration/doctype/ups_shipment/ups_shipment.py:79-83 | a code exists exactly for Pounds, Kilograms and Ounces, and it is the table's entry: LBS, KGS and OZS |
| ShipmentTables.ExampleCodes | ups_integration/ups_integration/doctype/ups_shipment/ups_shipment.py:9-83 | listed names give their table codes; a differently cased or empty name gives no code rather than an error |
| Text.KeepTruthy | ups_integration/ups_integration/doctype/ups_shipment/ups_shipment.py:194-196 | the filter keeps exactly the non-empty lines, and there are never more of them than there were lines |
| Text.KeepTruthyAppend | ups_integration/ups_integration/doctype/ups_shipment/ups_shipment.py:194-196 | filtering a concatenation filters each part in turn, so kept lines keep their order and their repeats |
| Text.KeepTruthySingle | ups_integration/ups_integration/doctype/ups_shipment/ups_shipment.py:194-196 | a single line is kept exactly when it is non-empty |
| Text.KeepTruthyPair | ups_integration/ups_integration/doctype/ups_shipment/ups_shipment.py:194-196 | filtering `[line1, line2]` keeps line1 then line2, each only when non-empty |
| Text.Upper | ups_integration/ups_integration/doctype/ups_shipment/ups_shipment.py:198 | upper-casing keeps the length and upper-cases every character in place |
| Text.UpperIdempotent | ups_integration/ups_integration/doctype/ups_shipment/ups_shipment.py:198 | an upper-cased country code has no lower-case ASCII letter left, and upper-casing it again changes nothing |
| UpsShipment.AddressJson | ups_integration/ups_integration/doctype/ups_shipment/ups_shipment.py:190-204 | AddressLine holds at most two lines, none empty; City is passed through; CountryCode is upper-cased; PostalCode is present if and only if the pincode is non-empty |
| UpsShipment.RequestJson | ups_integration/ups_integration/doctype/ups_shipment/ups_shipment.py:106-110 | exactly SubVersion and RequestOption; the version comes from the settings; RequestOption is null exactly when the validation mode is not in the table |
| UpsShipment.ShipperJson | ups_integration/ups_integration/doctype/ups_shipment/ups_shipment.py:126-133 | Name is the shipper; ShipperNumber is the settings account number; Address follows the address rule |
| UpsShipment.ShipToJson | ups_integration/ups_integration/doctype/ups_shipment/ups_shipment.py:135-141 | Name is the recipient, and Address follows the same address rule |
| UpsShipment.ShipmentChargeList | ups_integration/ups_integration/doctype/ups_shipment/ups_shipment.py:148-161 | one entry per charge, in order; entry i has the charge-type code of charge i and bills the settings account |
| UpsShipment.ChargeEntry | ups_integration/ups_integration/doctype/ups_shipment/ups_shipment.py:152-158 | a charge entry has exactly Type and BillShipper; Type is null when the charge type is not in the table and otherwise its code; BillShipper holds only AccountNumber, the settings account (null when unset) |
| UpsShipment.PaymentInformationJson | ups_integration/ups_integration/doctype/ups_shipment/ups_shipment.py:143-146 | the only key is ShipmentCharge, which holds the charge list |
| UpsShipment.ServiceJson | ups_integration/ups_integration/doctype/ups_shipment/ups_shipment.py:163-166 | Code is null exactly when the service is not in the table, and otherwise is the table's code |
| UpsShipment.PackageList | ups_integration/ups_integration/doctype/ups_shipment/ups_shipment.py:168-182 | one entry per package, in order, with that package's packaging code, unit code and weight text |
| UpsShipment.PackageEntry | ups_integration/ups_integration/doctype/ups_shipment/ups_shipment.py:172-179 | a package entry has exactly Packaging and PackageWeight; Packaging.Code is the package-type code or null; PackageWeight holds exactly UnitOfMeasurement, whose Code is the unit code or null, and Weight, the weight's text |
| UpsShipment.ShipmentJson | ups_integration/ups_integration/doctype/ups_shipment/ups_shipment.py:112-124 | the five parts are always present; Description is present if and only if the description is non-empty, and then unchanged |
| UpsShipment.ShipmentRequestJson | ups_integration/ups_integration/doctype/ups_shipment/ups_shipment.py:92-104 | exactly one top-level key, ShipmentRequest; it holds Request and Shipment and never LabelSpecification or ReceiptSpecification |
| UpsShipment.PaymentBillsShipperAccount | ups_integration/ups_integration/doctype/ups_shipment/ups_shipment.py:126-161 | PaymentInformation has one charge per charge row, and each bills the account number given as Shipper.ShipperNumber |
| UpsShipment.ChargesBillShipperAccount | ups_integration/ups_integration/doctype/ups_shipment/ups_shipment.py:92-161 | in the built request, every ShipmentCharge's BillShipper.AccountNumber equals Shipment.Shipper.ShipperNumber, one charge per charge row |
| ShipmentReader.ReadBuiltAddress | ups_integration/ups_integration/doctype/ups_shipment/ups_shipment.py:190-204 | reading a built address gives the non-empty lines, the city, the upper-cased country and the pincode only when set |
| ShipmentReader.ReadBuiltPackage | ups_integration/ups_integration/doctype/ups_shipment/ups_shipment.py:172-179 | a built package entry reads back as its packaging code, unit code and formatted weight |
| ShipmentReader.ReadBuiltPackages | ups_integration/ups_integration/doctype/ups_shipment/ups_shipment.py:168-182 | the package list reads back as the packages' expected views, same length and order |
| ShipmentReader.ReadBuiltCharges | ups_integration/ups_integration/doctype/ups_shipment/ups_shipment.py:148-161 | the charge list reads back as the charges' expected views, same length and order |
| ShipmentReader.ReadBuiltHeader | ups_integration/ups_integration/doctype/ups_shipment/ups_shipment.py:106-110 | Request reads back as the settings version and the looked-up request option |
| ShipmentReader.ReadBuiltShipper | ups_integration/ups_integration/doctype/ups_shipment/ups_shipment.py:126-133 | Shipper reads back as its name, the account number and the expected address |
| ShipmentReader.ReadBuiltShipTo | ups_integration/ups_integration/doctype/ups_shipment/ups_shipment.py:135-141 | ShipTo reads back as its name and the expected address |
| ShipmentReader.ReadBuiltPayment | ups_integration/ups_integration/doctype/ups_shipment/ups_shipment.py:143-146 | PaymentInformation reads back as the expected charges |
| ShipmentReader.ReadExpectedParts | ups_integration/ups_integration/doctype/ups_shipment/ups_shipment.py:112-124 | a Shipment object whose parts each read back as the matching pieces of a view reads back as exactly that view, with Description only when non-empty |
| ShipmentReader.ReadBuiltShipment | ups_integration/ups_integration/doctype/ups_shipment/ups_shipment.py:112-124 | Request and Shipment together read back as the expected view, with the description only when it is set |
| ShipmentReader.ReadBackBuiltRequest | ups_integration/ups_integration/doctype/ups_shipment/ups_shipment.py:92-204 | the built request reads back as the expected view: codes (absent on a table miss), parties, addresses, and every charge and package in order |
| ShipmentReader.ExpectedGroundShipment | ups_integration/ups_integration/doctype/ups_shipment/ups_shipment.py:9-83 | a Ground shipment of one customer-supplied package in pounds, billed for transportation, expects codes 03, 02, LBS and 01 |
| ShipmentReader.ExpectedGroundPackages | ups_integration/ups_integration/doctype/ups_shipment/ups_shipment.py:47-83 | the one customer-supplied package in pounds expects packaging code 02 and unit LBS |
| ShipmentReader.ExpectedGroundCharges | ups_integration/ups_integration/doctype/ups_shipment/ups_shipment.py:73-77 | the one transportation charge expects type 01 and bills the settings account |
| ShipmentReader.ExpectedGroundAddress | ups_integration/ups_integration/doctype/ups_shipment/ups_shipment.py:190-204 | the example address expects one address line, an upper-cased country and no postal code |
| ShipmentReader.GroundShipmentExample | ups_integration/ups_integration/doctype/ups_shipment/ups_shipment.py:92-204 | the request built for that shipment reads back with those codes, upper-cased country, one address line, and no description or postal code |
| Frappe.GetPassword | ups_integration/ups_integration/doctype/ups_settings/ups_settings.py:22 | a password is read only when one is stored and non-empty; otherwise the store's authentication failure gives None |
| Frappe.PasswordRoundTrip | ups_integration/ups_integration/doctype/ups_settings/ups_settings.py:47-52 | reading a saved token gives it back; saving an empty or missing one leaves nothing readable |
| Frappe.StorePassword | ups_integration/ups_integration/doctype/ups_settings/ups_settings.py:48 | a password field holds a value exactly when it is given a non-empty string, and then holds that string |
| UpsSettings.GetApiBaseUrl | ups_integration/ups_integration/doctype/ups_settings/ups_settings.py:10-18 | the two environments give their hosts; every other target server gives "" |
| UpsSettings.GetClientId | ups_integration/ups_integration/doctype/ups_settings/ups_settings.py:34-35 | the client id is the stored field, unchanged |
| UpsSettings.GetBearerToken | ups_integration/ups_integration/doctype/ups_settings/ups_settings.py:20-32 | the stored token is returned if and only if it is non-empty and its expiry is set and later than now + 10 minutes |
| UpsSettings.GetClientSecret | ups_integration/ups_integration/doctype/ups_settings/ups_settings.py:37-45 | the secret when stored, with no log entry; otherwise None and exactly one entry with the failure title and the UPS Settings reference |
| UpsSettings.SetAccessToken | ups_integration/ups_integration/doctype/ups_settings/ups_settings.py:47-52 | with both numbers present, stores the token and sets expiry = issued_at + 1000·expires_in ms, changing no other field; a missing number saves nothing |
| UpsSettings.TokenRefreshKeepsCredentials | ups_integration/ups_integration/doctype/ups_settings/ups_settings.py:47-52 | saving a new token leaves the client id, the client secret and the API base URL as they were |
| UpsSettings.FreshTokenIsTrusted | ups_integration/ups_integration/doctype/ups_settings/ups_settings.py:20-52 | a non-empty token saved with more than ten minutes left is returned by the next read |
| UpsSettings.ShortLivedTokenIsNotTrusted | ups_integration/ups_integration/doctype/ups_settings/ups_settings.py:20-52 | a token saved with ten minutes or less left is not returned |
| UpsSettings.ExpiryBoundaryIsExclusive | ups_integration/ups_integration/doctype/ups_settings/ups_settings.py:26 | an expiry of exactly now + 10 minutes is not trusted |
| UpsSettings.TrustIsMonotone | ups_integration/ups_integration/doctype/ups_settings/ups_settings.py:26 | a token trusted at some time is trusted, and identical, at every earlier time |
| UpsSettings.CacheWindowExamples | ups_integration/ups_integration/doctype/ups_settings/ups_settings.py:20-30 | expiry in 15 minutes gives the token; in 5 minutes, or no expiry, gives None |
| Requests.IsInstance | ups_integration/ups_client.py:81-90 | an instance of any caught class is an Exception, and only the Exception clause catches exceptions from outside requests |
| Requests.ExceptionHierarchy | ups_integration/ups_client.py:7 | HTTPError, ConnectionError and Timeout are RequestExceptions, every RequestException is an Exception, ConnectTimeout is both a ConnectionError and a Timeout, and only a bare BaseException is not an Exception |
| Requests.RaisesForStatus | ups_integration/ups_client.py:78 | `raise_for_status` raises exactly for 4xx and 5xx statuses and never below 400 |
| Requests.NewSession | ups_integration/ups_client.py:25-29 | a new session is open and has no headers; the default adapters stay on https:// and http:// without retries, and the retrying adapter is mounted on the base URL |
| Requests.CloseSession | ups_integration/ups_client.py:39-41 | closing leaves headers and mounts, and the session is no longer open |
| UpsClient.NewClient | ups_integration/ups_client.py:11-13 | the client takes the settings' base URL and starts without a session or token |
| UpsClient.FirstHandler | ups_integration/ups_client.py:81-90 | the chosen clause matches the exception and no earlier clause does; None only when no clause matches |
| UpsClient.Request | ups_integration/ups_client.py:75-92 | the response is returned if and only if neither the call nor raise_for_status raised; otherwise None and exactly one log entry from the first matching clause; only a non-Exception escapes |
| UpsClient.TokenRequest | ups_integration/ups_client.py:43-52 | a POST to base + /security/v1/oauth/token with the client-credentials form body, form content type, merchant header and Basic auth |
| UpsClient.Send | ups_integration/ups_client.py:52-92 | the request is recorded and settings are untouched; a response leaves the log alone; a caught failure appends exactly the entry of the first matching clause to the kept log; only a non-Exception raises, and then nothing is logged |
| UpsClient.SaveAccessToken | ups_integration/ups_client.py:65-70 | saves the response's token and times when both numbers are present; otherwise raises and the world is unchanged |
| UpsClient.CreateToken | ups_integration/ups_client.py:43-63 | sends exactly one token request with the settings' credentials; the log gains the client-secret failure entry, if any, then the caught failure's entry; a failed request returns None with the settings untouched; a response is saved, and the returned token is the one saved; when it raises, the persisted settings are unchanged |
| UpsClient.GetOrCreateToken | ups_integration/ups_client.py:31-34 | a trusted cached token is returned with no request and nothing changed; otherwise exactly one token request is made and its result returned |
| UpsClient.SetAuthorizationHeader | ups_integration/ups_client.py:36-37 | the header becomes "Bearer " + the token's string form, and every other header and the session state are kept |
| UpsClient.AuthorizationHeader | ups_integration/ups_client.py:37 | the header value is "Bearer " followed by the token, or by "None" when there is no token |
| UpsClient.AbsentTokenHeaders | ups_integration/ups_client.py:37 | a missing token gives "Bearer None" and an empty one "Bearer " |
| UpsClient.Enter | ups_integration/ups_client.py:15-20 | an open session with the retrying adapter on the base URL; `__enter__` returns exactly when `_get_or_create_token` returns, the persisted state and log are the token step's, and the client's token is the one it returned; on return the fresh session's headers gain Authorization for that token; within the model only a TypeError from a missing number or a BaseException escapes, leaving the session open and the persisted settings unchanged |
| UpsClient.Exit | ups_integration/ups_client.py:39-41 | an existing session is closed with its headers and mounts kept; a client without a session is left unchanged |
| UpsClient.ConnectTimeoutIsLoggedAsConnectionError | ups_integration/ups_client.py:81-86 | a connect timeout is logged as a Connection Error because that clause precedes Timeout |
| UpsClient.ReadTimeoutIsLoggedAsTimeout | ups_integration/ups_client.py:81-86 | a read timeout is logged as a Timeout Error |
| UpsClient.ErrorStatusIsLoggedAsHttpError | ups_integration/ups_client.py:77-82 | a 4xx or 5xx response gives None and exactly one HTTP Error log entry |
| UpsClient.OtherRequestExceptionIsLoggedAsGeneral | ups_integration/ups_client.py:81-88 | any other requests exception is logged as a General Error |
| UpsClient.ForeignExceptionIsLoggedAsUnexpected | ups_integration/ups_client.py:81-90 | an ordinary non-requests exception is logged as an Unexpected Error |
| UpsClient.HandlerTitlesDistinct | ups_integration/ups_client.py:81-90 | each failure category logs under its own title |
| UpsClient.EnterWithCachedToken | ups_integration/ups_client.py:15-34 | with a trusted cached token, entering sends nothing, changes nothing persisted and authorises with that token |
| UpsClient.EnterSurvivesTokenFailure | ups_integration/ups_client.py:15-58 | a failed token request does not abort entering; the header reads "Bearer None", the saved token is untouched, and the log gains the client-secret failure entry, if any, then the caught failure's entry |
| UpsClient.EnterUsesSavedToken | ups_integration/ups_client.py:15-70 | after a successful token response, entering authorises with exactly the token it saved |
| UpsClient.EnterAuthorisesWithResponseToken | ups_integration/ups_client.py:15-70 | after a successful token response with both numbers, entering authorises with the response's `access_token` as it is, so a missing one gives "Bearer None" and an empty one "Bearer " |
| UpsClient.ExitClosesEnteredSession | ups_integration/ups_client.py:15-41 | leaving a client that entered normally closes its session |

## Left out

- `UPSShipment.validate` is not modelled. It calls `client.ship`, which `UPSClient` does not define, so its behaviour is unspecified.
- Frappe lookups are inputs rather than modelled behaviour. These are `frappe.db.get_single_value`, `frappe.get_doc("Address")` and `frappe.get_value("Country")`. The account number, API version, address records and country codes are passed in.
- Unset party names and an unset client id are not modelled: `ShipmentDoc.shipper`, `ShipmentDoc.shipTo` and `Settings.clientId` are strings. In the code an unset name is sent as `"Name": null` (ups_integration/ups_integration/doctype/ups_shipment/ups_shipment.py:128, 137), and an unset client id as the Basic-auth pair `(None, secret)` (ups_integration/ups_client.py:63).
- Two missing values in an address are not modelled. A country with no code makes `.upper()` raise `AttributeError` on `None`. A missing city would appear as null.
- UpsShipment.PackageList: the weight's text is an abstract `WeightFormat`, because Python's float repr (`f"{weight}"`) is not modelled.
- Text.Upper: only ASCII letters are upper-cased, because Unicode case mapping is library behaviour.
- Python dict key order is not modelled, because payload objects are maps.
- The `requests` library is not modelled: transport, retries, timeouts, JSON decoding of response bodies, and the session's default headers. Retries appear only as the adapter's retry count.
- Token response fields are taken as already-decoded integers. The conversion `int()` does on numeric strings is not modelled.
- UpsSettings.SetAccessToken: expiry is exact integer milliseconds. It ignores the float division in `fromtimestamp(int(issued_at) / 1000)` and local-time conversion.
- UpsSettings.GetBearerToken: `now` is a parameter in milliseconds rather than `now_datetime()`.
- Log entries carry only the title and reference doctype. The exception object passed as the message is not modelled.
- A missing client secret is sent as the Basic-auth pair `(client_id, None)`. How `requests` encodes it is not modelled.
- UpsClient.Enter: other exceptions can also escape `__enter__` in the code, and the model does not promise their absence. A token response whose body is not JSON makes `token_response.json()` raise (ups_integration/ups_client.py:55). A failing `self.save` also raises (ups_integration/ups_integration/doctype/ups_settings/ups_settings.py:52). Here response bodies arrive decoded and saving cannot fail.
- Persistence (`self.save`) is a record update. Permissions, hooks and database errors are not modelled.
- `setup.py` is packaging only and is not modelled.
- Nothing runs concurrently, so concurrency is not modelled.

=== FILE: frappe.dfy ===
/** The slice of the Frappe framework the integration touches: password fields and the error log. */
module Frappe {
  import opened Wrappers

  /** A Password field as the password store sees it: a stored secret, or nothing stored. */
  datatype Password = Stored(text: string) | NotStored

  /**
   * `Document.get_password`: the stored secret, or None where Frappe raises
   * AuthenticationError because no (non-empty) password is stored.
   */
  function GetPassword(p: Password): (r: Option<string>)
    ensures r.Some? <==> p.Stored? && p.text != ""
    ensures r.Some? ==> r.value == p.text
  {
    match p
    case Stored(text) => if text != "" then Some(text) else None
    case NotStored => None
  }

  /** Saving a Password field: a falsy value (None or "") removes the stored password. */
  function StorePassword(value: Option<string>): (r: Password)
    ensures r.Stored? <==> value.Some? && value.value != ""
    ensures r.Stored? ==> r.text == value.value
  {
    match value
    case Some(text) => if text != "" then Stored(text) else NotStored
    case None => NotStored
  }

  /** What is saved is what is read back, except that an empty or missing value reads as unavailable. */
  lemma PasswordRoundTrip(value: Option<string>)
    ensures GetPassword(StorePassword(value)) == (if value.Some? && value.value != "" then value else None)
  {
  }

  /** One record of `frappe.log_error`: its title and, when given, the reference doctype. */
  datatype LogEntry = LogEntry(title: string, referenceDoctype: Option<string>)
}

=== FILE: json.dfy ===
/** The JSON value a Python request body of dicts, lists, strings and None serialises to. */
module Json {
  import opened Wrappers

  /**
   * Objects are keyed by `K`, the vocabulary of field names of one schema; key order
   * is not part of the model.
   */
  datatype Json<K(==)> = Null | Str(text: string) | Arr(items: seq<Json<K>>) | Obj(fields: map<K, Json<K>>)

  /** A Python value that is a string or None: None serialises to `null`. */
  function FromOption<K(==)>(o: Option<string>): Json<K> {
    match o
    case Some(s) => Str(s)
    case None => Null
  }

  /** Reads a string-or-null JSON value back; anything else is not such a value. */
  function ToOption<K(==)>(j: Json<K>): Option<Option<string>> {
    match j
    case Null => Some(None)
    case Str(s) => Some(Some(s))
    case _ => None
  }

  /** A list of strings. */
  function Strs<K(==)>(ss: seq<string>): (r: seq<Json<K>>)
    ensures |r| == |ss|
    ensures forall i :: 0 <= i < |ss| ==> r[i] == Str(ss[i])
  {
    if ss == [] then [] else [Str(ss[0])] + Strs(ss[1..])
  }

  /** Reads a list of strings back. */
  function ToStrs<K(==)>(items: seq<Json<K>>): (r: Option<seq<string>>)
    ensures r.Some? <==> forall i :: 0 <= i < |items| ==> items[i].Str?
    ensures r.Some? ==> |r.value| == |items| && forall i :: 0 <= i < |items| ==> r.value[i] == items[i].text
  {
    if items == [] then Some([])
    else if !items[0].Str? then None
    else match ToStrs(items[1..])
      case None => None
      case Some(rest) => Some([items[0].text] + rest)
  }

  /** The value under `key` of an object, or None. */
  function Member<K(==)>(j: Json<K>, key: K): Option<Json<K>> {
    if j.Obj? && key in j.fields then Some(j.fields[key]) else None
  }

  lemma OptionRoundTrip<K>(o: Option<string>)
    ensures ToOption<K>(FromOption(o)) == Some(o)
  {
  }

  lemma StrsRoundTrip<K>(ss: seq<string>)
    ensures ToStrs(Strs<K>(ss)) == Some(ss)
  {
    var r := ToStrs(Strs<K>(ss));
    assert r.Some? && r.value == ss;
  }
}

=== FILE: requests_model.dfy ===
/**
 * The parts of the `requests` library the client relies on: the exception hierarchy it
 * catches, a response with its status, `raise_for_status`, the request a session sends,
 * and the session itself. The network is not modelled: what a call returns or raises is
 * an `Outcome` supplied from outside.
 */
module Requests {
  import opened Wrappers

  /**
   * An exception, by class. Several requests classes have more than one ancestor
   * of interest: ConnectTimeout is both a ConnectionError and a Timeout.
   */
  datatype PyException =
    | HTTPError
    | ConnectionError
    | ProxyError              // subclass of ConnectionError
    | SSLError                // subclass of ConnectionError
    | Timeout
    | ConnectTimeout          // subclass of ConnectionError and of Timeout
    | ReadTimeout             // subclass of Timeout
    | OtherRequestException   // RequestException itself or another subclass (InvalidURL, TooManyRedirects, ...)
    | OtherException          // an Exception outside requests' hierarchy (TypeError, ValueError, ...)
    | BaseExceptionOnly       // a BaseException that is not an Exception (KeyboardInterrupt, SystemExit)

  /** The classes named in `except` clauses. */
  datatype ExceptionClass = HTTPErrorClass | ConnectionErrorClass | TimeoutClass | RequestExceptionClass | ExceptionClass

  /** `isinstance(e, cls)` over the hierarchy above. */
  predicate IsInstance(e: PyException, cls: ExceptionClass)
    ensures IsInstance(e, cls) ==> e != BaseExceptionOnly
    ensures IsInstance(e, cls) && cls != ExceptionClass ==> e != OtherException
  {
    match cls
    case HTTPErrorClass => e == HTTPError
    case ConnectionErrorClass => e == ConnectionError || e == ProxyError || e == SSLError || e == ConnectTimeout
    case TimeoutClass => e == Timeout || e == ConnectTimeout || e == ReadTimeout
    case RequestExceptionClass => e != OtherException && e != BaseExceptionOnly
    case ExceptionClass => e != BaseExceptionOnly
  }

  /**
   * The class tree the `except` clauses rely on: HTTPError, ConnectionError and Timeout
   * are RequestExceptions, every RequestException is an Exception, ConnectTimeout is both
   * a ConnectionError and a Timeout, and only a bare BaseException is not an Exception.
   */
  lemma ExceptionHierarchy()
    ensures forall e :: IsInstance(e, HTTPErrorClass) ==> IsInstance(e, RequestExceptionClass)
    ensures forall e :: IsInstance(e, ConnectionErrorClass) ==> IsInstance(e, RequestExceptionClass)
    ensures forall e :: IsInstance(e, TimeoutClass) ==> IsInstance(e, RequestExceptionClass)
    ensures forall e :: IsInstance(e, RequestExceptionClass) ==> IsInstance(e, ExceptionClass)
    ensures IsInstance(ConnectTimeout, ConnectionErrorClass) && IsInstance(ConnectTimeout, TimeoutClass)
    ensures forall e :: !IsInstance(e, ExceptionClass) <==> e == BaseExceptionOnly
    ensures IsInstance(OtherException, ExceptionClass) && !IsInstance(OtherException, RequestExceptionClass)
  {
  }

  /** The decoded JSON body fields the client reads; an int field is None when `int()` of it would raise. */
  datatype ResponseBody = ResponseBody(accessToken: Option<string>, issuedAt: Option<int>, expiresIn: Option<int>)

  datatype Response = Response(status: int, body: ResponseBody)

  /** `Response.raise_for_status` raises HTTPError for 4xx and 5xx statuses. */
  predicate RaisesForStatus(status: int)
    ensures RaisesForStatus(status) <==> (400 <= status < 500 || 500 <= status < 600)
    ensures status < 400 ==> !RaisesForStatus(status)
  {
    400 <= status < 600
  }

  /** What `Session.request` did: returned a response or raised. */
  datatype Outcome = Responded(response: Response) | Raised(error: PyException)

  /** An outgoing request: HTTP method, url, form data, headers and Basic-auth pair `(user, password)`. */
  datatype HttpRequest = HttpRequest(
    verb: string,
    url: string,
    data: map<string, string>,
    headers: map<string, string>,
    auth: (string, Option<string>))

  /** A session: whether it is open, its default headers, and the retry budget of each mounted URL prefix. */
  datatype Session = Session(open: bool, headers: map<string, string>, mounts: map<string, nat>)

  /** The prefixes `requests.Session()` mounts its default adapters on. */
  const DefaultPrefixes: set<string> := {"https://", "http://"}

  /** A default `HTTPAdapter` does not retry. */
  const DefaultRetries: nat := 0

  /**
   * `requests.Session()` followed by `mount(prefix, HTTPAdapter(max_retries=retries))`: the
   * default adapters stay mounted, and the new one replaces any adapter on `prefix`.
   */
  function NewSession(prefix: string, retries: nat): (s: Session)
    ensures s.open && s.headers == map[]
    ensures s.mounts.Keys == DefaultPrefixes + {prefix}
    ensures s.mounts[prefix] == retries
    ensures forall p :: p in DefaultPrefixes && p != prefix ==> s.mounts[p] == DefaultRetries
  {
    Session(true, map[], map["https://" := DefaultRetries, "http://" := DefaultRetries][prefix := retries])
  }

  /** `Session.close`: only the open flag changes. */
  function CloseSession(s: Session): (r: Session)
    ensures !r.open
    ensures r.headers == s.headers && r.mounts == s.mounts
  {
    s.(open := false)
  }
}

=== FILE: shipment_reader.dfy ===
/**
 * The receiving side of a ShipmentRequest: a reader that extracts, field by field, what
 * the carrier learns from the payload, and an independent statement of what it should
 * learn from a shipment. The round-trip lemma at the end ties the builder to both: the
 * request carries every code, name and row of the shipment, in order, and nothing is
 * lost or reordered on the way.
 */
module ShipmentReader {
  import opened Wrappers
  import opened Text
  import opened Json
  import opened ShipmentTables
  import opened UpsSettings
  import opened UpsShipment

  datatype AddressView = AddressView(lines: seq<string>, city: string, countryCode: string, postalCode: Option<string>)

  datatype PackageView = PackageView(packagingCode: Option<string>, unitCode: Option<string>, weight: string)

  datatype ChargeView = ChargeView(typeCode: Option<string>, accountNumber: Option<string>)

  datatype RequestView = RequestView(
    subVersion: Option<string>,
    requestOption: Option<string>,
    shipperName: string,
    shipperNumber: Option<string>,
    shipperAddress: AddressView,
    shipToName: string,
    shipToAddress: AddressView,
    charges: seq<ChargeView>,
    serviceCode: Option<string>,
    packages: seq<PackageView>,
    description: Option<string>)

  /*
   * What a shipment should tell the carrier, stated directly from the documents.
   */

  function ExpectedAddress(a: AddressDoc): AddressView {
    AddressView(
      AddressLines(a),
      a.city,
      Upper(a.countryCode),
      if Truthy(a.pincode) then Some(a.pincode) else None)
  }

  function ExpectedCharges(charges: seq<ChargeRow>, accountNumber: Option<string>): seq<ChargeView> {
    seq(|charges|, i requires 0 <= i < |charges| => ChargeView(ChargeTypeCode(charges[i].chargeType), accountNumber))
  }

  function ExpectedPackages(packages: seq<PackageRow>, format: WeightFormat): seq<PackageView> {
    seq(|packages|, i requires 0 <= i < |packages| =>
      PackageView(PackageTypeCode(packages[i].packageType), WeightUomCode(packages[i].weightUom), format(packages[i].weight)))
  }

  function Expected(s: ShipmentDoc, settings: Settings, format: WeightFormat): RequestView {
    RequestView(
      settings.apiVersion,
      RequestOptionCode(s.addressValidation),
      s.shipper,
      settings.accountNumber,
      ExpectedAddress(s.shipperAddress),
      s.shipTo,
      ExpectedAddress(s.shipToAddress),
      ExpectedCharges(s.charges, settings.accountNumber),
      ServiceCode(s.service),
      ExpectedPackages(s.packages, format),
      if Truthy(s.description) then Some(s.description) else None)
  }

  /*
   * The reader. Every step fails (None) on a payload of the wrong shape.
   */

  function ReadText(j: Payload): Option<string> {
    if j.Str? then Some(j.text) else None
  }

  /** A string-or-null member. */
  function ReadNullable(j: Payload, key: Key): Option<Option<string>> {
    var v :- Member(j, key);
    ToOption(v)
  }

  /** A string member. */
  function ReadTextMember(j: Payload, key: Key): Option<string> {
    var v :- Member(j, key);
    ReadText(v)
  }

  /** A list member. */
  function ReadList(j: Payload, key: Key): Option<seq<Payload>> {
    var v :- Member(j, key);
    if v.Arr? then Some(v.items) else None
  }

  /** An optional string member: absent reads as None. */
  function ReadOptionalText(j: Payload, key: Key): Option<Option<string>> {
    match Member(j, key)
    case None => Some(None)
    case Some(v) => if v.Str? then Some(Some(v.text)) else None
  }

  /** The `Code` inside the object under `key`. */
  function ReadCode(j: Payload, key: Key): Option<Option<string>> {
    var holder :- Member(j, key);
    ReadNullable(holder, Code)
  }

  function ReadAddress(j: Payload): Option<AddressView> {
    var items :- ReadList(j, AddressLine);
    var lines :- ToStrs(items);
    var city :- ReadTextMember(j, City);
    var countryCode :- ReadTextMember(j, CountryCode);
    var postalCode :- ReadOptionalText(j, PostalCode);
    Some(AddressView(lines, city, countryCode, postalCode))
  }

  function ReadPackage(j: Payload): Option<PackageView> {
    var packaging :- ReadCode(j, Packaging);
    var weight :- Member(j, PackageWeight);
    var unit :- ReadCode(weight, UnitOfMeasurement);
    var text :- ReadTextMember(weight, Weight);
    Some(PackageView(packaging, unit, text))
  }

  function ReadCharge(j: Payload): Option<ChargeView> {
    var chargeType :- ReadNullable(j, Type);
    var billShipper :- Member(j, BillShipper);
    var accountNumber :- ReadNullable(billShipper, AccountNumber);
    Some(ChargeView(chargeType, accountNumber))
  }

  /** Reads every entry; fails when any entry fails. */
  function ReadPackages(items: seq<Payload>): (r: Option<seq<PackageView>>)
    ensures r.Some? <==> forall i :: 0 <= i < |items| ==> ReadPackage(items[i]).Some?
    ensures r.Some? ==> |r.value| == |items| && forall i :: 0 <= i < |items| ==> r.value[i] == ReadPackage(items[i]).value
  {
    if items == [] then Some([])
    else
      match (ReadPackage(items[0]), ReadPackages(items[1..]))
      case (Some(first), Some(rest)) => Some([first] + rest)
      case _ => None
  }

  function ReadCharges(items: seq<Payload>): (r: Option<seq<ChargeView>>)
    ensures r.Some? <==> forall i :: 0 <= i < |items| ==> ReadCharge(items[i]).Some?
    ensures r.Some? ==> |r.value| == |items| && forall i :: 0 <= i < |items| ==> r.value[i] == ReadCharge(items[i]).value
  {
    if items == [] then Some([])
    else
      match (ReadCharge(items[0]), ReadCharges(items[1..]))
      case (Some(first), Some(rest)) => Some([first] + rest)
      case _ => None
  }

  /** `Request`: the version and the request option. */
  function ReadHeader(j: Payload): Option<(Option<string>, Option<string>)> {
    var subVersion :- ReadNullable(j, SubVersion);
    var requestOption :- ReadNullable(j, RequestOption);
    Some((subVersion, requestOption))
  }

  /** `Shipper`: name, account number and address. */
  function ReadShipper(j: Payload): Option<(string, Option<string>, AddressView)> {
    var name :- ReadTextMember(j, Name);
    var number :- ReadNullable(j, ShipperNumber);
    var address :- Member(j, Address);
    var view :- ReadAddress(address);
    Some((name, number, view))
  }

  /** `ShipTo`: name and address. */
  function ReadShipTo(j: Payload): Option<(string, AddressView)> {
    var name :- ReadTextMember(j, Name);
    var address :- Member(j, Address);
    var view :- ReadAddress(address);
    Some((name, view))
  }

  /** `PaymentInformation`: the charges. */
  function ReadPayment(j: Payload): Option<seq<ChargeView>> {
    var items :- ReadList(j, ShipmentCharge);
    ReadCharges(items)
  }

  function ReadShipment(request: Payload, shipment: Payload): Option<RequestView> {
    var header :- ReadHeader(request);
    var shipperJson :- Member(shipment, Shipper);
    var shipper :- ReadShipper(shipperJson);
    var shipToJson :- Member(shipment, ShipTo);
    var shipTo :- ReadShipTo(shipToJson);
    var paymentJson :- Member(shipment, PaymentInformation);
    var charges :- ReadPayment(paymentJson);
    var serviceCode :- ReadCode(shipment, Service);
    var packageItems :- ReadList(shipment, Package);
    var packages :- ReadPackages(packageItems);
    var description :- ReadOptionalText(shipment, Description);
    Some(RequestView(
      header.0, header.1, shipper.0, shipper.1, shipper.2,
      shipTo.0, shipTo.1, charges, serviceCode, packages, description))
  }

  /** Reads a whole ShipmentRequest payload. */
  function ReadRequest(j: Payload): Option<RequestView> {
    var root :- Member(j, ShipmentRequest);
    var request :- Member(root, Request);
    var shipment :- Member(root, Shipment);
    ReadShipment(request, shipment)
  }

  /*
   * Round trip.
   */

  lemma ReadBuiltAddress(a: AddressDoc)
    ensures ReadAddress(AddressJson(a)) == Some(ExpectedAddress(a))
  {
    var j := AddressJson(a);
    StrsRoundTrip<Key>(AddressLines(a));
    assert ReadList(j, AddressLine) == Some(Strs(AddressLines(a)));
    assert ReadTextMember(j, City) == Some(a.city);
    assert ReadTextMember(j, CountryCode) == Some(Upper(a.countryCode));
    assert ReadOptionalText(j, PostalCode) == (if Truthy(a.pincode) then Some(Some(a.pincode)) else Some(None));
  }

  lemma ReadBuiltPackage(p: PackageRow, format: WeightFormat)
    ensures ReadPackage(PackageJson(p, format))
         == Some(PackageView(PackageTypeCode(p.packageType), WeightUomCode(p.weightUom), format(p.weight)))
  {
    var j := PackageJson(p, format);
    var packaging := Obj(map[Code := FromOption(PackageTypeCode(p.packageType))]);
    var unit := Obj(map[Code := FromOption(WeightUomCode(p.weightUom))]);
    var weight := Obj(map[UnitOfMeasurement := unit, Weight := Str(format(p.weight))]);
    assert j == Obj(map[Packaging := packaging, PackageWeight := weight]);
    OptionRoundTrip<Key>(PackageTypeCode(p.packageType));
    OptionRoundTrip<Key>(WeightUomCode(p.weightUom));
    assert ReadCode(j, Packaging) == Some(PackageTypeCode(p.packageType));
    assert ReadCode(weight, UnitOfMeasurement) == Some(WeightUomCode(p.weightUom));
  }

  lemma ReadBuiltPackages(packages: seq<PackageRow>, format: WeightFormat)
    ensures ReadPackages(PackageList(packages, format)) == Some(ExpectedPackages(packages, format))
  {
    var items := PackageList(packages, format);
    var expected := ExpectedPackages(packages, format);
    forall i | 0 <= i < |items|
      ensures ReadPackage(items[i]) == Some(expected[i])
    {
      ReadBuiltPackage(packages[i], format);
    }
    var r := ReadPackages(items);
    assert r.Some?;
    assert r.value == expected;
  }

  lemma ReadBuiltCharges(charges: seq<ChargeRow>, accountNumber: Option<string>)
    ensures ReadCharges(ShipmentChargeList(charges, accountNumber)) == Some(ExpectedCharges(charges, accountNumber))
  {
    var items := ShipmentChargeList(charges, accountNumber);
    var expected := ExpectedCharges(charges, accountNumber);
    forall i | 0 <= i < |items|
      ensures ReadCharge(items[i]) == Some(expected[i])
    {
      var billShipper := items[i].fields[BillShipper];
      assert ReadNullable(items[i], Type) == Some(ChargeTypeCode(charges[i].chargeType));
      assert ReadNullable(billShipper, AccountNumber) == Some(accountNumber);
    }
    var r := ReadCharges(items);
    assert r.Some?;
    assert r.value == expected;
  }

  lemma ReadBuiltHeader(s: ShipmentDoc, settings: Settings)
    ensures ReadHeader(RequestJson(s, settings)) == Some((settings.apiVersion, RequestOptionCode(s.addressValidation)))
  {
    var j := RequestJson(s, settings);
    assert ReadNullable(j, SubVersion) == Some(settings.apiVersion);
    assert ReadNullable(j, RequestOption) == Some(RequestOptionCode(s.addressValidation));
  }

  lemma ReadBuiltShipper(s: ShipmentDoc, settings: Settings)
    ensures ReadShipper(ShipperJson(s, settings)) == Some((s.shipper, settings.accountNumber, ExpectedAddress(s.shipperAddress)))
  {
    var j := ShipperJson(s, settings);
    ReadBuiltAddress(s.shipperAddress);
    assert ReadTextMember(j, Name) == Some(s.shipper);
    assert ReadNullable(j, ShipperNumber) == Some(settings.accountNumber);
  }

  lemma ReadBuiltShipTo(s: ShipmentDoc)
    ensures ReadShipTo(ShipToJson(s)) == Some((s.shipTo, ExpectedAddress(s.shipToAddress)))
  {
    ReadBuiltAddress(s.shipToAddress);
    assert ReadTextMember(ShipToJson(s), Name) == Some(s.shipTo);
  }

  lemma ReadBuiltPayment(s: ShipmentDoc, settings: Settings)
    ensures ReadPayment(PaymentInformationJson(s, settings)) == Some(ExpectedCharges(s.charges, settings.accountNumber))
  {
    ReadBuiltCharges(s.charges, settings.accountNumber);
    assert ReadList(PaymentInformationJson(s, settings), ShipmentCharge) == Some(ShipmentChargeList(s.charges, settings.accountNumber));
  }

  /** Reading an assembled `Shipment` reads each of its parts. */
  lemma ReadAssembled(request: Payload, shipper: Payload, shipTo: Payload, payment: Payload, service: Payload,
                      packageItems: seq<Payload>, description: string)
    requires ReadHeader(request).Some? && ReadShipper(shipper).Some? && ReadShipTo(shipTo).Some?
    requires ReadPayment(payment).Some? && ReadNullable(service, Code).Some? && ReadPackages(packageItems).Some?
    ensures
      var header := ReadHeader(request).value;
      var shipperView := ReadShipper(shipper).value;
      var shipToView := ReadShipTo(shipTo).value;
      ReadShipment(request, ShipmentObject(shipper, shipTo, payment, service, Arr(packageItems), description))
      == Some(RequestView(
           header.0, header.1, shipperView.0, shipperView.1, shipperView.2, shipToView.0, shipToView.1,
           ReadPayment(payment).value, ReadNullable(service, Code).value, ReadPackages(packageItems).value,
           if Truthy(description) then Some(description) else None))
  {
    var shipment := ShipmentObject(shipper, shipTo, payment, service, Arr(packageItems), description);
    assert ReadCode(shipment, Service) == ReadNullable(service, Code);
    assert ReadList(shipment, Package) == Some(packageItems);
    assert ReadOptionalText(shipment, Description) == Some(if Truthy(description) then Some(description) else None);
  }

  /** Parts that each read back as a piece of `v` assemble into a `Shipment` that reads back as `v`. */
  lemma ReadExpectedParts(v: RequestView, request: Payload, shipper: Payload, shipTo: Payload, payment: Payload,
                          service: Payload, packageItems: seq<Payload>, description: string)
    requires ReadHeader(request) == Some((v.subVersion, v.requestOption))
    requires ReadShipper(shipper) == Some((v.shipperName, v.shipperNumber, v.shipperAddress))
    requires ReadShipTo(shipTo) == Some((v.shipToName, v.shipToAddress))
    requires ReadPayment(payment) == Some(v.charges)
    requires ReadNullable(service, Code) == Some(v.serviceCode)
    requires ReadPackages(packageItems) == Some(v.packages)
    requires v.description == if Truthy(description) then Some(description) else None
    ensures ReadShipment(request, ShipmentObject(shipper, shipTo, payment, service, Arr(packageItems), description)) == Some(v)
  {
    ReadAssembled(request, shipper, shipTo, payment, service, packageItems, description);
  }

  lemma ReadBuiltShipment(s: ShipmentDoc, settings: Settings, format: WeightFormat)
    ensures ReadShipment(RequestJson(s, settings), ShipmentJson(s, settings, format)) == Some(Expected(s, settings, format))
  {
    ReadBuiltHeader(s, settings);
    ReadBuiltShipper(s, settings);
    ReadBuiltShipTo(s);
    ReadBuiltPayment(s, settings);
    ReadBuiltPackages(s.packages, format);
    assert ReadNullable(ServiceJson(s), Code) == Some(ServiceCode(s.service));
    ReadExpectedParts(Expected(s, settings, format), RequestJson(s, settings), ShipperJson(s, settings), ShipToJson(s),
                      PaymentInformationJson(s, settings), ServiceJson(s), PackageList(s.packages, format), s.description);
  }

  /**
   * Reading back a built request yields exactly what the shipment should tell the
   * carrier: the settings' version and account number, the looked-up codes (None where
   * a name is outside its table), both parties with their addresses, every charge and
   * every package in their original order, and the description only when it is set.
   */
  lemma ReadBackBuiltRequest(s: ShipmentDoc, settings: Settings, format: WeightFormat)
    ensures ReadRequest(ShipmentRequestJson(s, settings, format)) == Some(Expected(s, settings, format))
  {
    ReadBuiltShipment(s, settings, format);
  }

  /** A one-package ground shipment, billed for transportation, with no description. */
  function GroundShipment(): ShipmentDoc {
    var address := AddressDoc("1 Main St", "", "Springfield", "", "us");
    ShipmentDoc(
      "ACME", address, "Bob", address, "Ground", "Postal Code, State Province Code", "",
      [PackageRow("Customer Supplied Package", 5.0, "Pounds")],
      [ChargeRow("Transportation")])
  }

  lemma ExpectedGroundPackages(format: WeightFormat)
    ensures ExpectedPackages(GroundShipment().packages, format) == [PackageView(Some("02"), Some("LBS"), format(5.0))]
  {
    var row := PackageRow("Customer Supplied Package", 5.0, "Pounds");
    assert GroundShipment().packages == [row];
    assert PackageTypeCode(row.packageType) == Some("02");
    assert WeightUomCode(row.weightUom) == Some("LBS");
    var packages := ExpectedPackages([row], format);
    assert |packages| == 1 && packages[0] == PackageView(Some("02"), Some("LBS"), format(5.0));
  }

  lemma ExpectedGroundCharges(accountNumber: Option<string>)
    ensures ExpectedCharges(GroundShipment().charges, accountNumber) == [ChargeView(Some("01"), accountNumber)]
  {
    var row := ChargeRow("Transportation");
    assert GroundShipment().charges == [row];
    assert ChargeTypeCode(row.chargeType) == Some("01");
    var charges := ExpectedCharges([row], accountNumber);
    assert |charges| == 1 && charges[0] == ChargeView(Some("01"), accountNumber);
  }

  lemma ExpectedGroundAddress()
    ensures ExpectedAddress(GroundShipment().shipToAddress) == AddressView(["1 Main St"], "Springfield", "US", None)
  {
    var address := AddressDoc("1 Main St", "", "Springfield", "", "us");
    assert GroundShipment().shipToAddress == address;
    assert AddressLines(address) == ["1 Main St"];
    assert Upper("us") == "US";
  }

  /** What the ground shipment should tell the carrier, whatever the settings and weight format. */
  lemma ExpectedGroundShipment(format: WeightFormat, settings: Settings)
    ensures
      var e := Expected(GroundShipment(), settings, format);
      && e.serviceCode == Some("03")
      && e.requestOption == Some("nonvalidate")
      && e.packages == [PackageView(Some("02"), Some("LBS"), format(5.0))]
      && e.charges == [ChargeView(Some("01"), settings.accountNumber)]
      && e.description == None
      && e.shipToAddress == AddressView(["1 Main St"], "Springfield", "US", None)
  {
    var s := GroundShipment();
    assert s.service == "Ground" && s.addressValidation == "Postal Code, State Province Code" && s.description == "";
    ExpectedGroundPackages(format);
    ExpectedGroundCharges(settings.accountNumber);
    ExpectedGroundAddress();
  }

  /** End to end: the built request for the ground shipment reads back with the expected codes. */
  lemma GroundShipmentExample(format: WeightFormat, settings: Settings)
    ensures
      var view := ReadRequest(ShipmentRequestJson(GroundShipment(), settings, format));
      && view.Some?
      && view.value.serviceCode == Some("03")
      && view.value.requestOption == Some("nonvalidate")
      && view.value.packages == [PackageView(Some("02"), Some("LBS"), format(5.0))]
      && view.value.charges == [ChargeView(Some("01"), settings.accountNumber)]
      && view.value.description == None
      && view.value.shipToAddress == AddressView(["1 Main St"], "Springfield", "US", None)
  {
    ReadBackBuiltRequest(GroundShipment(), settings, format);
    ExpectedGroundShipment(format, settings);
  }
}

=== FILE: shipment_tables.dfy ===
/**
 * The five fixed tables that translate the human-readable choices of a UPS Shipment
 * into carrier codes (module-level dicts of ups_shipment.py). A lookup is `dict.get`:
 * a name outside a table yields None, never an error.
 */
module ShipmentTables {
  import opened Wrappers

  const RequestOptions: map<string, string> := map[
    "Postal Code, State Province Code, City" := "validate",
    "Postal Code, State Province Code" := "nonvalidate"
  ]

  const Services: map<string, string> := map[
    "Next Day Air" := "01",
    "2nd Day Air" := "02",
    "Ground" := "03",
    "Express" := "07",
    "Expedited" := "08",
    "UPS Standard" := "11",
    "3 Day Select" := "12",
    "Next Day Air Saver" := "13",
    "UPS Next Day Air Early" := "14",
    "UPS Worldwide Economy DDU" := "17",
    "Express Plus" := "54",
    "2nd Day Air A.M." := "59",
    "UPS Saver" := "65",
    "First Class Mail" := "M2",
    "Priority Mail" := "M3",
    "Expedited Mail Innovations" := "M4",
    "Priority Mail Innovations" := "M5",
    "Economy Mail Innovations" := "M6",
    "Mail Innovations (MI) Returns" := "M7",
    "UPS Access Point Economy" := "70",
    "UPS Worldwide Express Freight Midday" := "71",
    "UPS Worldwide Economy DDP" := "72",
    "UPS Express 12:00" := "74",
    "UPS Heavy Goods" := "75",
    "UPS Today Standard" := "82",
    "UPS Today Dedicated Courier" := "83",
    "UPS Today Intercity" := "84",
    "UPS Today Express" := "85",
    "UPS Today Express Saver" := "86",
    "UPS Worldwide Express Freight" := "96"
  ]

  const PackageTypes: map<string, string> := map[
    "UPS Letter" := "01",
    "Customer Supplied Package" := "02",
    "Tube" := "03",
    "PAK" := "04",
    "UPS Express Box" := "21",
    "UPS 25KG Box" := "24",
    "UPS 10KG Box" := "25",
    "Pallet" := "30",
    "Small Express Box" := "2a",
    "Medium Express Box" := "2b",
    "Large Express Box" := "2c",
    "Flats" := "56",
    "Parcels" := "57",
    "BPM" := "58",
    "First Class" := "59",
    "Priority" := "60",
    "Machineables" := "61",
    "Irregulars" := "62",
    "Parcel Post" := "63",
    "BPM Parcel" := "64",
    "Media Mail" := "65",
    "BPM Flat" := "66",
    "Standard Flat" := "67"
  ]

  const ChargeTypes: map<string, string> := map[
    "Transportation" := "01",
    "Duties and Taxes" := "02",
    "Broker of Choice" := "03"
  ]

  const WeightUoms: map<string, string> := map[
    "Pounds" := "LBS",
    "Kilograms" := "KGS",
    "Ounces" := "OZS"
  ]

  /** The address-validation mode of a shipment as `RequestOption`. */
  function RequestOptionCode(mode: string): (code: Option<string>)
    ensures code.Some? <==> mode in RequestOptions
    ensures code.Some? ==> code.value == RequestOptions[mode]
    ensures mode == "Postal Code, State Province Code, City" ==> code == Some("validate")
    ensures mode == "Postal Code, State Province Code" ==> code == Some("nonvalidate")
  {
    Get(RequestOptions, mode)
  }

  /** The shipment's service as `Service.Code`. */
  function ServiceCode(service: string): (code: Option<string>)
    ensures code.Some? <==> service in Services
    ensures code.Some? ==> code.value == Services[service]
    ensures service == "Ground" ==> code == Some("03")
    ensures service == "UPS Standard" ==> code == Some("11")
  {
    Get(Services, service)
  }

  /** A package's type as `Packaging.Code`. */
  function PackageTypeCode(packageType: string): (code: Option<string>)
    ensures code.Some? <==> packageType in PackageTypes
    ensures code.Some? ==> code.value == PackageTypes[packageType]
    ensures packageType == "Customer Supplied Package" ==> code == Some("02")
    ensures packageType == "Small Express Box" ==> code == Some("2a")
  {
    Get(PackageTypes, packageType)
  }

  /** A charge's type as `ShipmentCharge.Type`. */
  function ChargeTypeCode(chargeType: string): (code: Option<string>)
    ensures code.Some? <==> chargeType in ChargeTypes
    ensures code.Some? ==> code.value == ChargeTypes[chargeType]
    ensures chargeType == "Transportation" ==> code == Some("01")
    ensures chargeType == "Duties and Taxes" ==> code == Some("02")
    ensures chargeType == "Broker of Choice" ==> code == Some("03")
  {
    Get(ChargeTypes, chargeType)
  }

  /** A package's weight unit as `UnitOfMeasurement.Code`. */
  function WeightUomCode(uom: string): (code: Option<string>)
    ensures code.Some? <==> uom in WeightUoms
    ensures code.Some? ==> code.value == WeightUoms[uom]
    ensures uom == "Pounds" ==> code == Some("LBS")
    ensures uom == "Kilograms" ==> code == Some("KGS")
    ensures uom == "Ounces" ==> code == Some("OZS")
  {
    Get(WeightUoms, uom)
  }

  /** The codes of a Ground shipment of one customer-supplied package in pounds, billed for transportation. */
  lemma ExampleCodes()
    ensures ServiceCode("Ground") == Some("03")
    ensures PackageTypeCode("Customer Supplied Package") == Some("02")
    ensures WeightUomCode("Pounds") == Some("LBS")
    ensures ChargeTypeCode("Transportation") == Some("01")
    ensures ServiceCode("ground") == None && WeightUomCode("") == None
  {
  }
}

=== FILE: text.dfy ===
/** The few pieces of Python string behaviour the integration relies on. */
module Text {
  import opened Wrappers

  /** Truthiness of a text field: Frappe leaves unset Data fields as None or "", both falsy. */
  predicate Truthy(s: string) {
    s != ""
  }

  /** `f"{x}"` for a value that is either a string or None. */
  function Show(o: Option<string>): string {
    match o
    case Some(s) => s
    case None => "None"
  }

  predicate IsAsciiLower(c: char) {
    'a' <= c <= 'z'
  }

  /** `str.upper` restricted to ASCII: a-z become A-Z, every other character is kept. */
  function UpperChar(c: char): (u: char)
    ensures !IsAsciiLower(u)
    ensures IsAsciiLower(c) ==> u as int == c as int - 32
    ensures !IsAsciiLower(c) ==> u == c
  {
    if IsAsciiLower(c) then (c as int - 32) as char else c
  }

  /** ASCII `str.upper`, character by character. */
  function Upper(s: string): (r: string)
    ensures |r| == |s|
    ensures forall i :: 0 <= i < |s| ==> r[i] == UpperChar(s[i])
  {
    if s == [] then [] else [UpperChar(s[0])] + Upper(s[1..])
  }

  /** Upper-casing twice changes nothing beyond upper-casing once, and leaves no lower-case letter. */
  lemma UpperIdempotent(s: string)
    ensures Upper(Upper(s)) == Upper(s)
    ensures forall i :: 0 <= i < |s| ==> !IsAsciiLower(Upper(s)[i])
  {
  }

  /** The list comprehension `[line for line in lines if line]`. */
  function KeepTruthy(lines: seq<string>): (r: seq<string>)
    ensures |r| <= |lines|
    ensures forall i :: 0 <= i < |r| ==> Truthy(r[i])
    ensures forall x :: x in r <==> x in lines && Truthy(x)
  {
    if lines == [] then []
    else if Truthy(lines[0]) then [lines[0]] + KeepTruthy(lines[1..])
    else KeepTruthy(lines[1..])
  }

  /** Filtering a concatenation filters each part, keeping order and repeats. */
  lemma {:induction false} KeepTruthyAppend(a: seq<string>, b: seq<string>)
    ensures KeepTruthy(a + b) == KeepTruthy(a) + KeepTruthy(b)
    decreases |a|
  {
    if a == [] {
      assert a + b == b;
    } else {
      assert (a + b)[0] == a[0];
      assert (a + b)[1..] == a[1..] + b;
      KeepTruthyAppend(a[1..], b);
    }
  }

  /** A single line is kept exactly when it is non-empty. */
  lemma KeepTruthySingle(x: string)
    ensures KeepTruthy([x]) == (if Truthy(x) then [x] else [])
  {
    assert [x][1..] == [];
  }

  /** For two lines the comprehension keeps the non-empty ones in their original order. */
  lemma KeepTruthyPair(a: string, b: string)
    ensures KeepTruthy([a, b]) == (if Truthy(a) then [a] else []) + (if Truthy(b) then [b] else [])
  {
    assert [a, b][1..] == [b];
    assert [b][1..] == [];
  }
}

=== FILE: ups_client.dfy ===
/**
 * UPSClient: a context manager that opens a session, obtains a bearer token (cached or
 * freshly issued through the client-credentials grant) and absorbs every request failure
 * into a None result plus one log entry.
 *
 * Effects are explicit: a `World` holds the persisted settings, the error log and the
 * requests sent so far, and the network is a function from request to outcome.
 */
module UpsClient {
  import opened Wrappers
  import opened Text
  import opened Frappe
  import opened Requests
  import opened UpsSettings

  datatype World = World(settings: Settings, log: seq<LogEntry>, sent: seq<HttpRequest>)

  type Network = HttpRequest -> Outcome

  /** A step either returns normally or lets an exception escape; both carry the world it leaves. */
  datatype Flow<T> = Normal(value: T, world: World) | Raising(error: PyException, world: World)

  datatype Client = Client(apiBaseUrl: string, session: Option<Session>, bearerToken: Option<string>)

  const TokenPath := "/security/v1/oauth/token"
  const MerchantId := "erpnext-h38dj3"
  const MaxRetries: nat := 3

  /** The `except` clauses of `request`, in order, with the log title each one writes. */
  const Handlers: seq<(ExceptionClass, string)> := [
    (HTTPErrorClass, "UPS API Request HTTP Error"),
    (ConnectionErrorClass, "UPS API Request Connection Error"),
    (TimeoutClass, "UPS API Request Timeout Error"),
    (RequestExceptionClass, "UPS API Request General Error"),
    (ExceptionClass, "UPS API Request Unexpected Error")
  ]

  /** `UPSClient()`: the base URL is fixed at construction; no session yet. */
  function NewClient(settings: Settings): (c: Client)
    ensures c.apiBaseUrl == GetApiBaseUrl(settings)
    ensures c.session.None? && c.bearerToken.None?
  {
    Client(GetApiBaseUrl(settings), None, None)
  }

  /** The index of the first clause in `handlers` whose class `e` is an instance of. */
  function FirstHandler(e: PyException, handlers: seq<(ExceptionClass, string)>): (r: Option<nat>)
    ensures r.Some? ==> r.value < |handlers| && IsInstance(e, handlers[r.value].0)
    ensures r.Some? ==> forall j :: 0 <= j < r.value ==> !IsInstance(e, handlers[j].0)
    ensures r.None? ==> forall j :: 0 <= j < |handlers| ==> !IsInstance(e, handlers[j].0)
  {
    if handlers == [] then None
    else if IsInstance(e, handlers[0].0) then Some(0)
    else
      match FirstHandler(e, handlers[1..])
      case None => None
      case Some(i) => Some(i + 1)
  }

  /** The exception `request` deals with for a failed call: the raised one, or HTTPError from `raise_for_status`. */
  function FailureOf(call: Outcome): PyException {
    match call
    case Raised(e) => e
    case Responded(_) => HTTPError
  }

  /** Whether the call and `raise_for_status` both went through. */
  predicate Succeeded(call: Outcome) {
    call.Responded? && !RaisesForStatus(call.response.status)
  }

  /** The result of `request`: a response or None with the log entries written, or an escaping exception. */
  datatype Handled = Handled(response: Option<Response>, logged: seq<LogEntry>) | Propagated(error: PyException)

  /** The first matching `except` clause's log entry, or propagation when no clause matches. */
  function Handle(e: PyException): Handled {
    match FirstHandler(e, Handlers)
    case Some(i) => Handled(None, [LogEntry(Handlers[i].1, None)])
    case None => Propagated(e)
  }

  /**
   * `UPSClient.request`: the response when neither the call nor `raise_for_status` raised;
   * otherwise None and one log entry titled by the first clause that catches the failure.
   * Only a BaseException that is not an Exception gets past `except Exception`.
   */
  function Request(call: Outcome): (r: Handled)
    ensures (r.Handled? && r.response.Some?) <==> Succeeded(call)
    ensures Succeeded(call) ==> r == Handled(Some(call.response), [])
    ensures r.Propagated? <==> !Succeeded(call) && FailureOf(call) == BaseExceptionOnly
    ensures r.Handled? && r.response.None? ==>
      exists i :: 0 <= i < |Handlers| && r.logged == [LogEntry(Handlers[i].1, None)]
        && IsInstance(FailureOf(call), Handlers[i].0)
        && forall j :: 0 <= j < i ==> !IsInstance(FailureOf(call), Handlers[j].0)
  {
    match call
    case Raised(e) => Handle(e)
    case Responded(response) =>
      if RaisesForStatus(response.status) then Handle(HTTPError)
      else Handled(Some(response), [])
  }

  /** The token request: POST of the client-credentials grant, form-encoded, with the merchant header and Basic auth. */
  predicate IsTokenRequest(req: HttpRequest, baseUrl: string, clientId: string, clientSecret: Option<string>) {
    && req.verb == "POST"
    && req.url == baseUrl + TokenPath
    && req.data == map["grant_type" := "client_credentials"]
    && req.headers == map["Content-Type" := "application/x-www-form-urlencoded", "x-merchant-id" := MerchantId]
    && req.auth == (clientId, clientSecret)
  }

  function TokenRequest(baseUrl: string, clientId: string, clientSecret: Option<string>): (req: HttpRequest)
    ensures IsTokenRequest(req, baseUrl, clientId, clientSecret)
  {
    HttpRequest(
      "POST",
      baseUrl + TokenPath,
      map["grant_type" := "client_credentials"],
      map["Content-Type" := "application/x-www-form-urlencoded", "x-merchant-id" := MerchantId],
      (clientId, clientSecret))
  }

  /** Sends `req` through the wrapper: the request is recorded and any log entries are appended. */
  function Send(w: World, req: HttpRequest, network: Network): (r: Flow<Option<Response>>)
    ensures r.world.settings == w.settings
    ensures r.world.sent == w.sent + [req]
    ensures r.Normal? && r.value.Some? <==> Succeeded(network(req))
    ensures r.Normal? && r.value.Some? ==> r.value.value == network(req).response && r.world.log == w.log
    ensures r.Normal? && r.value.None? ==> |r.world.log| == |w.log| + 1
    ensures r.Raising? <==> Request(network(req)).Propagated?
    ensures r.Raising? ==> r.error == BaseExceptionOnly && r.world.log == w.log
    ensures Request(network(req)).Handled? ==> r.world.log == w.log + Request(network(req)).logged
  {
    var w1 := w.(sent := w.sent + [req]);
    match Request(network(req))
    case Handled(response, logged) => Normal(response, w1.(log := w1.log + logged))
    case Propagated(e) => Raising(e, w1)
  }

  /** `_save_access_token`: persists token, issued_at and expires_in, or raises TypeError from `int(None)`. */
  function SaveAccessToken(w: World, body: ResponseBody): (r: Flow<()>)
    ensures r.world.log == w.log && r.world.sent == w.sent
    ensures r.Normal? <==> body.issuedAt.Some? && body.expiresIn.Some?
    ensures r.Normal? ==> Some(r.world.settings) == SetAccessToken(w.settings, body.accessToken, body.issuedAt, body.expiresIn)
    ensures r.Raising? ==> r.world == w && r.error == OtherException
  {
    match SetAccessToken(w.settings, body.accessToken, body.issuedAt, body.expiresIn)
    case Some(saved) => Normal((), w.(settings := saved))
    case None => Raising(OtherException, w)
  }

  /**
   * `_create_token`: reads the credentials, sends the token request and, on a response,
   * saves and returns its `access_token`. A response object is always truthy here, since
   * `request` only returns responses that passed `raise_for_status`.
   */
  function CreateToken(c: Client, w: World, network: Network): (r: Flow<Option<string>>)
    ensures var secret := GetClientSecret(w.settings).secret;
      && |r.world.sent| == |w.sent| + 1 && r.world.sent[..|w.sent|] == w.sent
      && IsTokenRequest(r.world.sent[|w.sent|], c.apiBaseUrl, w.settings.clientId, secret)
    ensures var req := TokenRequest(c.apiBaseUrl, w.settings.clientId, GetClientSecret(w.settings).secret);
      && (!Succeeded(network(req)) && FailureOf(network(req)) != BaseExceptionOnly ==>
            r.Normal? && r.value.None? && r.world.settings == w.settings)
      && (Succeeded(network(req)) ==>
            var body := network(req).response.body;
            && (r.Normal? <==> body.issuedAt.Some? && body.expiresIn.Some?)
            && (r.Normal? ==>
                  && r.value == body.accessToken
                  && Some(r.world.settings) == SetAccessToken(w.settings, body.accessToken, body.issuedAt, body.expiresIn)))
    ensures r.Normal? && r.value.Some? && r.value.value != "" ==> GetPassword(r.world.settings.accessToken) == r.value
    ensures r.Raising? ==> r.error == OtherException || r.error == BaseExceptionOnly
    ensures r.Raising? ==> r.world.settings == w.settings
    ensures var req := TokenRequest(c.apiBaseUrl, w.settings.clientId, GetClientSecret(w.settings).secret);
      && (Request(network(req)).Handled? ==>
            r.world.log == w.log + GetClientSecret(w.settings).logged + Request(network(req)).logged)
      && (Request(network(req)).Propagated? ==>
            r.Raising? && r.error == BaseExceptionOnly && r.world.log == w.log + GetClientSecret(w.settings).logged)
  {
    var secret := GetClientSecret(w.settings);
    var w1 := w.(log := w.log + secret.logged);
    var req := TokenRequest(c.apiBaseUrl, GetClientId(w.settings), secret.secret);
    match Send(w1, req, network)
    case Raising(e, w2) => Raising(e, w2)
    case Normal(None, w2) => Normal(None, w2)
    case Normal(Some(response), w2) =>
      match SaveAccessToken(w2, response.body)
      case Raising(e, w3) => Raising(e, w3)
      case Normal(_, w3) => Normal(response.body.accessToken, w3)
  }

  /** `_get_or_create_token`: a trusted cached token wins and costs no request; otherwise a new one is created. */
  function GetOrCreateToken(c: Client, w: World, now: int, network: Network): (r: Flow<Option<string>>)
    ensures GetBearerToken(w.settings, now).Some? ==> r == Normal(GetBearerToken(w.settings, now), w)
    ensures GetBearerToken(w.settings, now).None? ==>
      && |r.world.sent| == |w.sent| + 1
      && IsTokenRequest(r.world.sent[|w.sent|], c.apiBaseUrl, w.settings.clientId, GetClientSecret(w.settings).secret)
    ensures GetBearerToken(w.settings, now).None? ==> r == CreateToken(c, w, network)
  {
    var cached := GetBearerToken(w.settings, now);
    if cached.Some? && Truthy(cached.value) then Normal(cached, w) else CreateToken(c, w, network)
  }

  /** The Authorization header value: the token's f-string form, "None" included. */
  function AuthorizationHeader(token: Option<string>): (header: string)
    ensures |header| >= 7 && header[..7] == "Bearer "
    ensures token.Some? ==> header[7..] == token.value
    ensures token.None? ==> header[7..] == "None"
  {
    "Bearer " + Show(token)
  }

  /** A missing token is written as "None" and an empty one as nothing at all. */
  lemma AbsentTokenHeaders()
    ensures AuthorizationHeader(None) == "Bearer None"
    ensures AuthorizationHeader(Some("")) == "Bearer "
  {
    assert Show(None) == "None";
  }

  /** `_set_authorization_header`: the session's headers gain Authorization; nothing else changes. */
  function SetAuthorizationHeader(s: Session, token: Option<string>): (r: Session)
    ensures r.open == s.open && r.mounts == s.mounts
    ensures r.headers.Keys == s.headers.Keys + {"Authorization"}
    ensures r.headers["Authorization"] == AuthorizationHeader(token)
    ensures forall k :: k in s.headers && k != "Authorization" ==> r.headers[k] == s.headers[k]
  {
    s.(headers := s.headers["Authorization" := AuthorizationHeader(token)])
  }

  /** The client after `__enter__` returned, or the client and exception when it raised. */
  datatype Entered = Entered(client: Client, world: World) | EnterRaised(error: PyException, client: Client, world: World)

  /**
   * `__enter__`: open a session, get a token, set the Authorization header. A token
   * that could not be obtained does not abort: the header then reads "Bearer None".
   * When an exception escapes, the with statement does not run `__exit__`, so the
   * session it opened stays open.
   */
  function Enter(c: Client, w: World, now: int, network: Network): (r: Entered)
    ensures r.client.apiBaseUrl == c.apiBaseUrl
    ensures r.client.session.Some? && r.client.session.value.open
    ensures c.apiBaseUrl in r.client.session.value.mounts && r.client.session.value.mounts[c.apiBaseUrl] == MaxRetries
    ensures r.Entered? ==> "Authorization" in r.client.session.value.headers
    ensures r.Entered? ==>
      r.client.session.value.headers
      == NewSession(c.apiBaseUrl, MaxRetries).headers["Authorization" := AuthorizationHeader(r.client.bearerToken)]
    ensures r.EnterRaised? ==> r.error == OtherException || r.error == BaseExceptionOnly
    ensures r.EnterRaised? ==> r.world.settings == w.settings
    ensures var flow := GetOrCreateToken(c.(session := Some(NewSession(c.apiBaseUrl, MaxRetries))), w, now, network);
      && (r.Entered? <==> flow.Normal?)
      && r.world == flow.world
      && (r.Entered? ==> r.client.bearerToken == flow.value)
  {
    var session := NewSession(c.apiBaseUrl, MaxRetries);
    var c1 := c.(session := Some(session));
    match GetOrCreateToken(c1, w, now, network)
    case Raising(e, w1) => EnterRaised(e, c1, w1)
    case Normal(token, w1) =>
      Entered(c1.(bearerToken := token, session := Some(SetAuthorizationHeader(session, token))), w1)
  }

  /** `__exit__` / `_close_session`: closes the session if there is one; a client without a session is left alone. */
  function Exit(c: Client): (r: Client)
    ensures c.session.None? ==> r == c
    ensures c.session.Some? ==> r.session.Some? && !r.session.value.open
    ensures c.session.Some? ==> r.session.value.headers == c.session.value.headers
    ensures c.session.Some? ==> r.session.value.mounts == c.session.value.mounts
    ensures r.apiBaseUrl == c.apiBaseUrl && r.bearerToken == c.bearerToken
  {
    match c.session
    case None => c
    case Some(s) => c.(session := Some(CloseSession(s)))
  }

  /** The title `request` logs for a failed call, when some clause catches the failure. */
  function LoggedTitle(call: Outcome): Option<string> {
    match Request(call)
    case Handled(_, logged) => if |logged| == 1 then Some(logged[0].title) else None
    case Propagated(_) => None
  }

  /** A ConnectTimeout is a Timeout too, but the ConnectionError clause comes first. */
  lemma ConnectTimeoutIsLoggedAsConnectionError()
    ensures LoggedTitle(Raised(ConnectTimeout)) == Some("UPS API Request Connection Error")
  {
    assert FirstHandler(ConnectTimeout, Handlers) == Some(1);
  }

  lemma ReadTimeoutIsLoggedAsTimeout()
    ensures LoggedTitle(Raised(ReadTimeout)) == Some("UPS API Request Timeout Error")
  {
    assert FirstHandler(ReadTimeout, Handlers) == Some(2);
  }

  /** A 4xx or 5xx response is logged as an HTTP error, whatever its body. */
  lemma ErrorStatusIsLoggedAsHttpError(status: int, body: ResponseBody)
    requires 400 <= status < 600
    ensures Request(Responded(Response(status, body))) == Handled(None, [LogEntry("UPS API Request HTTP Error", None)])
  {
    assert FirstHandler(HTTPError, Handlers) == Some(0);
  }

  lemma OtherRequestExceptionIsLoggedAsGeneral()
    ensures LoggedTitle(Raised(OtherRequestException)) == Some("UPS API Request General Error")
  {
    assert FirstHandler(OtherRequestException, Handlers) == Some(3);
  }

  lemma ForeignExceptionIsLoggedAsUnexpected()
    ensures LoggedTitle(Raised(OtherException)) == Some("UPS API Request Unexpected Error")
  {
    assert FirstHandler(OtherException, Handlers) == Some(4);
  }

  /** Each clause logs under its own title, so the log tells the failure categories apart. */
  lemma HandlerTitlesDistinct()
    ensures forall i, j :: 0 <= i < j < |Handlers| ==> Handlers[i].1 != Handlers[j].1
  {
  }

  /** With a trusted cached token, `__enter__` sends nothing, changes nothing persisted and uses the cached token. */
  lemma EnterWithCachedToken(c: Client, w: World, now: int, network: Network)
    requires GetBearerToken(w.settings, now).Some?
    ensures Enter(c, w, now, network).Entered?
    ensures Enter(c, w, now, network).world == w
    ensures Enter(c, w, now, network).client.bearerToken == GetBearerToken(w.settings, now)
    ensures Enter(c, w, now, network).client.session.value.headers["Authorization"]
      == "Bearer " + w.settings.accessToken.text
  {
  }

  /**
   * A failed token request does not abort `__enter__`: the client carries no token, the
   * header reads "Bearer None", the saved token and expiry are untouched, and the log gains
   * the client-secret failure entry, if any, then the entry of the clause that caught the failure.
   */
  lemma EnterSurvivesTokenFailure(c: Client, w: World, now: int, network: Network)
    requires GetBearerToken(w.settings, now).None?
    requires var req := TokenRequest(c.apiBaseUrl, w.settings.clientId, GetClientSecret(w.settings).secret);
      !Succeeded(network(req)) && FailureOf(network(req)) != BaseExceptionOnly
    ensures Enter(c, w, now, network).Entered?
    ensures Enter(c, w, now, network).client.bearerToken == None
    ensures Enter(c, w, now, network).client.session.value.headers["Authorization"] == "Bearer None"
    ensures Enter(c, w, now, network).world.settings == w.settings
    ensures var req := TokenRequest(c.apiBaseUrl, w.settings.clientId, GetClientSecret(w.settings).secret);
      Enter(c, w, now, network).world.log == w.log + GetClientSecret(w.settings).logged + Request(network(req)).logged
  {
    var c1 := c.(session := Some(NewSession(c.apiBaseUrl, MaxRetries)));
    assert c1.apiBaseUrl == c.apiBaseUrl;
    var req := TokenRequest(c1.apiBaseUrl, w.settings.clientId, GetClientSecret(w.settings).secret);
    assert !Succeeded(network(req)) && FailureOf(network(req)) != BaseExceptionOnly;
    var flow := GetOrCreateToken(c1, w, now, network);
    assert flow == CreateToken(c1, w, network);
    assert flow.Normal? && flow.value.None? && flow.world.settings == w.settings;
    var r := Enter(c, w, now, network);
    assert r.Entered? && r.client.bearerToken == None;
    AbsentTokenHeaders();
  }

  /** With a fresh token response, `__enter__` authorises the session with exactly the token it saved. */
  lemma EnterUsesSavedToken(c: Client, w: World, now: int, network: Network, token: string)
    requires GetBearerToken(w.settings, now).None?
    requires var req := TokenRequest(c.apiBaseUrl, w.settings.clientId, GetClientSecret(w.settings).secret);
      && Succeeded(network(req))
      && network(req).response.body.accessToken == Some(token)
      && network(req).response.body.issuedAt.Some? && network(req).response.body.expiresIn.Some?
      && token != ""
    ensures Enter(c, w, now, network).Entered?
    ensures Enter(c, w, now, network).client.bearerToken == Some(token)
    ensures Enter(c, w, now, network).client.session.value.headers["Authorization"] == "Bearer " + token
    ensures GetPassword(Enter(c, w, now, network).world.settings.accessToken) == Some(token)
  {
    var c1 := c.(session := Some(NewSession(c.apiBaseUrl, MaxRetries)));
    assert c1.apiBaseUrl == c.apiBaseUrl;
    var flow := GetOrCreateToken(c1, w, now, network);
    assert flow == CreateToken(c1, w, network);
    assert flow.Normal? && flow.value == Some(token);
  }

  /**
   * Whatever `access_token` a successful response carries, `__enter__` authorises with its
   * string form: a missing token gives "Bearer None" and an empty one "Bearer ".
   */
  lemma EnterAuthorisesWithResponseToken(c: Client, w: World, now: int, network: Network)
    requires GetBearerToken(w.settings, now).None?
    requires var req := TokenRequest(c.apiBaseUrl, w.settings.clientId, GetClientSecret(w.settings).secret);
      && Succeeded(network(req))
      && network(req).response.body.issuedAt.Some? && network(req).response.body.expiresIn.Some?
    ensures var req := TokenRequest(c.apiBaseUrl, w.settings.clientId, GetClientSecret(w.settings).secret);
      var token := network(req).response.body.accessToken;
      && Enter(c, w, now, network).Entered?
      && Enter(c, w, now, network).client.bearerToken == token
      && Enter(c, w, now, network).client.session.value.headers["Authorization"] == AuthorizationHeader(token)
      && (token.None? ==> AuthorizationHeader(token) == "Bearer None")
      && (token == Some("") ==> AuthorizationHeader(token) == "Bearer ")
  {
    var c1 := c.(session := Some(NewSession(c.apiBaseUrl, MaxRetries)));
    assert c1.apiBaseUrl == c.apiBaseUrl;
    var flow := GetOrCreateToken(c1, w, now, network);
    assert flow == CreateToken(c1, w, network);
    AbsentTokenHeaders();
  }

  /** A client that entered normally has its session closed by `__exit__`. */
  lemma ExitClosesEnteredSession(c: Client, w: World, now: int, network: Network)
    requires Enter(c, w, now, network).Entered?
    ensures Exit(Enter(c, w, now, network).client).session.Some?
    ensures !Exit(Enter(c, w, now, network).client).session.value.open
  {
  }
}

=== FILE: ups_settings.dfy ===
/**
 * UPS Settings: the singleton holding the API environment, the OAuth client credentials
 * and the cached bearer token with its expiry. Timestamps are epoch milliseconds and the
 * current time is a parameter.
 */
module UpsSettings {
  import opened Wrappers
  import opened Frappe

  const CustomerIntegrationEnvironment := "Customer Integration Environment"
  const ProductionEnvironment := "Production Environment"

  const ApiBaseUrls: map<string, string> := map[
    CustomerIntegrationEnvironment := "https://wwwcie.ups.com",
    ProductionEnvironment := "https://onlinetools.ups.com"
  ]

  /** A cached token is only trusted while it has more than ten minutes left. */
  const SafetyMarginMs: int := 10 * 60 * 1000

  datatype Settings = Settings(
    targetServer: string,
    clientId: string,
    clientSecret: Password,
    accessToken: Password,
    expires: Option<int>,           // epoch milliseconds; None while unset
    accountNumber: Option<string>,
    apiVersion: Option<string>)

  /** Everything except the cached token and its expiry is the same in both records. */
  predicate SameConfiguration(a: Settings, b: Settings) {
    && a.targetServer == b.targetServer
    && a.clientId == b.clientId
    && a.clientSecret == b.clientSecret
    && a.accountNumber == b.accountNumber
    && a.apiVersion == b.apiVersion
  }

  /** The host of the selected environment; an unknown environment gives the empty string. */
  function GetApiBaseUrl(s: Settings): (url: string)
    ensures s.targetServer == CustomerIntegrationEnvironment ==> url == "https://wwwcie.ups.com"
    ensures s.targetServer == ProductionEnvironment ==> url == "https://onlinetools.ups.com"
    ensures url == "" <==> s.targetServer !in {CustomerIntegrationEnvironment, ProductionEnvironment}
  {
    Get(ApiBaseUrls, s.targetServer).GetOr("")
  }

  /** The cached token, when one is stored, its expiry is set and it outlives now + ten minutes. */
  function GetBearerToken(s: Settings, now: int): (token: Option<string>)
    ensures token.Some? <==>
      && s.accessToken.Stored? && s.accessToken.text != ""
      && s.expires.Some? && s.expires.value > now + SafetyMarginMs
    ensures token.Some? ==> token.value == s.accessToken.text
  {
    match GetPassword(s.accessToken)
    case None => None   // AuthenticationError from the password store
    case Some(accessToken) =>
      if accessToken != "" && s.expires.Some? && s.expires.value > now + SafetyMarginMs
      then Some(accessToken)
      else None
  }

  /** The OAuth client id, stored in plain text. */
  function GetClientId(s: Settings): (id: string)
    ensures id == s.clientId
  {
    s.clientId
  }

  /** A read of the client secret together with the log entries it wrote. */
  datatype SecretRead = SecretRead(secret: Option<string>, logged: seq<LogEntry>)

  const ClientSecretFailureTitle := "Failed to retrieve Client-Secret from UPS Settings"

  /** The client secret; when the password store refuses, None and exactly one log entry. */
  function GetClientSecret(s: Settings): (r: SecretRead)
    ensures r.secret.Some? <==> s.clientSecret.Stored? && s.clientSecret.text != ""
    ensures r.secret.Some? ==> r.secret.value == s.clientSecret.text && r.logged == []
    ensures r.secret.None? ==> r.logged == [LogEntry(ClientSecretFailureTitle, Some("UPS Settings"))]
  {
    match GetPassword(s.clientSecret)
    case Some(secret) => SecretRead(Some(secret), [])
    case None => SecretRead(None, [LogEntry(ClientSecretFailureTitle, Some("UPS Settings"))])
  }

  /**
   * Stores a freshly issued token: expiry = issued_at (ms) + expires_in (s). Python's
   * `int(None)` raises TypeError before anything is saved, so a missing issued_at or
   * expires_in leaves the settings as they were (None here).
   */
  function SetAccessToken(s: Settings, accessToken: Option<string>, issuedAt: Option<int>, expiresIn: Option<int>)
    : (r: Option<Settings>)
    ensures r.Some? <==> issuedAt.Some? && expiresIn.Some?
    ensures r.Some? ==> r.value.expires == Some(issuedAt.value + 1000 * expiresIn.value)
    ensures r.Some? ==> GetPassword(r.value.accessToken) == (if accessToken.Some? && accessToken.value != "" then accessToken else None)
    ensures r.Some? ==> SameConfiguration(s, r.value)
  {
    if issuedAt.None? || expiresIn.None? then None
    else
      var expires := issuedAt.value + expiresIn.value * 1000;
      Some(s.(accessToken := StorePassword(accessToken), expires := Some(expires)))
  }

  /** Saving a token leaves the client id and the client secret read as before. */
  lemma TokenRefreshKeepsCredentials(s: Settings, accessToken: Option<string>, issuedAt: Option<int>, expiresIn: Option<int>)
    requires issuedAt.Some? && expiresIn.Some?
    ensures var saved := SetAccessToken(s, accessToken, issuedAt, expiresIn);
      && saved.Some?
      && GetClientId(saved.value) == GetClientId(s)
      && GetClientSecret(saved.value) == GetClientSecret(s)
      && GetApiBaseUrl(saved.value) == GetApiBaseUrl(s)
  {
  }

  /** A token saved with more than ten minutes of validity left is handed out by the next read. */
  lemma FreshTokenIsTrusted(s: Settings, token: string, issuedAt: int, expiresIn: int, now: int)
    requires token != ""
    requires now + SafetyMarginMs < issuedAt + 1000 * expiresIn
    ensures SetAccessToken(s, Some(token), Some(issuedAt), Some(expiresIn)).Some?
    ensures GetBearerToken(SetAccessToken(s, Some(token), Some(issuedAt), Some(expiresIn)).value, now) == Some(token)
  {
    var saved := SetAccessToken(s, Some(token), Some(issuedAt), Some(expiresIn)).value;
    PasswordRoundTrip(Some(token));
    assert saved.accessToken == Stored(token);
  }

  /** A token saved with ten minutes or less left is not handed out: the read forces a refresh. */
  lemma ShortLivedTokenIsNotTrusted(s: Settings, token: Option<string>, issuedAt: int, expiresIn: int, now: int)
    requires issuedAt + 1000 * expiresIn <= now + SafetyMarginMs
    ensures SetAccessToken(s, token, Some(issuedAt), Some(expiresIn)).Some?
    ensures GetBearerToken(SetAccessToken(s, token, Some(issuedAt), Some(expiresIn)).value, now) == None
  {
  }

  /** At exactly now + ten minutes the token is no longer trusted. */
  lemma ExpiryBoundaryIsExclusive(s: Settings, now: int)
    requires s.expires == Some(now + SafetyMarginMs)
    ensures GetBearerToken(s, now) == None
  {
  }

  /** Trust only runs out: a token trusted at some time was trusted at every earlier time. */
  lemma TrustIsMonotone(s: Settings, earlier: int, later: int)
    requires earlier <= later
    requires GetBearerToken(s, later).Some?
    ensures GetBearerToken(s, earlier) == GetBearerToken(s, later)
  {
  }

  /** A token expiring in fifteen minutes is used; in five minutes, or with no expiry, it is not. */
  lemma CacheWindowExamples(s: Settings, now: int)
    requires s.accessToken == Stored("tok")
    ensures GetBearerToken(s.(expires := Some(now + 15 * 60 * 1000)), now) == Some("tok")
    ensures GetBearerToken(s.(expires := Some(now + 5 * 60 * 1000)), now) == None
    ensures GetBearerToken(s.(expires := None), now) == None
  {
  }
}

=== FILE: ups_shipment.dfy ===
/**
 * UPS Shipment: the mapping of a shipment document onto the carrier's ShipmentRequest.
 *
 * The records the builder reads from the database are inputs here: the two addresses
 * come already resolved together with their country's code, and the account number
 * and API version come from the UPS Settings record.
 */
module UpsShipment {
  import opened Wrappers
  import opened Text
  import opened Json
  import opened ShipmentTables
  import opened UpsSettings

  /** The field names of the carrier's ShipmentRequest schema; each is spelled on the wire as written here. */
  datatype Key =
    | ShipmentRequest | Request | Shipment | LabelSpecification | ReceiptSpecification
    | SubVersion | RequestOption
    | Shipper | ShipTo | PaymentInformation | Service | Package | Description
    | Name | ShipperNumber | Address
    | ShipmentCharge | Type | BillShipper | AccountNumber
    | Code | Packaging | PackageWeight | UnitOfMeasurement | Weight
    | AddressLine | City | CountryCode | PostalCode

  type Payload = Json<Key>

  /** An Address document with its country already resolved to the country's code. */
  datatype AddressDoc = AddressDoc(line1: string, line2: string, city: string, pincode: string, countryCode: string)

  /** A row of the shipment's packages table. */
  datatype PackageRow = PackageRow(packageType: string, weight: real, weightUom: string)

  /** A row of the shipment's charges table. */
  datatype ChargeRow = ChargeRow(chargeType: string)

  datatype ShipmentDoc = ShipmentDoc(
    shipper: string,
    shipperAddress: AddressDoc,
    shipTo: string,
    shipToAddress: AddressDoc,
    service: string,
    addressValidation: string,
    description: string,
    packages: seq<PackageRow>,
    charges: seq<ChargeRow>)

  /** How a weight is written as text (`f"{weight}"`); Python's float formatting is not modelled. */
  type WeightFormat = real -> string

  /** The non-empty address lines, in order. */
  function AddressLines(a: AddressDoc): seq<string> {
    (if Truthy(a.line1) then [a.line1] else []) + (if Truthy(a.line2) then [a.line2] else [])
  }

  /**
   * `get_address`: the non-empty lines, the city and the upper-cased country code;
   * PostalCode only when the pincode is set, omitted (not null) otherwise.
   */
  function AddressJson(a: AddressDoc): (r: Payload)
    ensures r.Obj?
    ensures r.fields.Keys == {AddressLine, City, CountryCode} + (if Truthy(a.pincode) then {PostalCode} else {})
    ensures r.fields[AddressLine] == Arr(Strs(AddressLines(a)))
    ensures |AddressLines(a)| <= 2 && forall i :: 0 <= i < |AddressLines(a)| ==> Truthy(AddressLines(a)[i])
    ensures r.fields[City] == Str(a.city)
    ensures r.fields[CountryCode] == Str(Upper(a.countryCode))
    ensures Truthy(a.pincode) ==> r.fields[PostalCode] == Str(a.pincode)
  {
    KeepTruthyPair(a.line1, a.line2);
    var result := map[
      AddressLine := Arr(Strs(KeepTruthy([a.line1, a.line2]))),
      City := Str(a.city),
      CountryCode := Str(Upper(a.countryCode))
    ];
    if Truthy(a.pincode) then Obj(result[PostalCode := Str(a.pincode)]) else Obj(result)
  }

  /** `get_request`: the API version and the address-validation option, null when the mode is not in the table. */
  function RequestJson(s: ShipmentDoc, settings: Settings): (r: Payload)
    ensures r.Obj? && r.fields.Keys == {SubVersion, RequestOption}
    ensures r.fields[SubVersion] == FromOption(settings.apiVersion)
    ensures r.fields[RequestOption].Null? <==> s.addressValidation !in RequestOptions
    ensures s.addressValidation in RequestOptions ==> r.fields[RequestOption] == Str(RequestOptions[s.addressValidation])
  {
    Obj(map[
      SubVersion := FromOption(settings.apiVersion),
      RequestOption := FromOption(RequestOptionCode(s.addressValidation))
    ])
  }

  /** `get_shipper`: the shipper's name, the account number and the shipper address. */
  function ShipperJson(s: ShipmentDoc, settings: Settings): (r: Payload)
    ensures r.Obj? && r.fields.Keys == {Name, ShipperNumber, Address}
    ensures r.fields[Name] == Str(s.shipper)
    ensures r.fields[ShipperNumber] == FromOption(settings.accountNumber)
    ensures r.fields[Address] == AddressJson(s.shipperAddress)
  {
    Obj(map[
      Name := Str(s.shipper),
      ShipperNumber := FromOption(settings.accountNumber),
      Address := AddressJson(s.shipperAddress)
    ])
  }

  /** `get_ship_to`: the recipient's name and address, built by the same rule as the shipper's. */
  function ShipToJson(s: ShipmentDoc): (r: Payload)
    ensures r.Obj? && r.fields.Keys == {Name, Address}
    ensures r.fields[Name] == Str(s.shipTo)
    ensures r.fields[Address] == AddressJson(s.shipToAddress)
  {
    Obj(map[Name := Str(s.shipTo), Address := AddressJson(s.shipToAddress)])
  }

  /** One entry of `ShipmentCharge`. */
  function ChargeJson(c: ChargeRow, accountNumber: Option<string>): Payload
  {
    Obj(map[
      Type := FromOption(ChargeTypeCode(c.chargeType)),
      BillShipper := Obj(map[AccountNumber := FromOption(accountNumber)])
    ])
  }

  /** `get_shipment_charge`: one entry per charge, in order, each billed to the account number. */
  function ShipmentChargeList(charges: seq<ChargeRow>, accountNumber: Option<string>): (r: seq<Payload>)
    ensures |r| == |charges|
    ensures forall i :: 0 <= i < |charges| ==>
      && r[i].Obj? && r[i].fields.Keys == {Type, BillShipper}
      && r[i].fields[Type] == FromOption(ChargeTypeCode(charges[i].chargeType))
      && r[i].fields[BillShipper] == Obj(map[AccountNumber := FromOption(accountNumber)])
  {
    if charges == [] then []
    else ShipmentChargeList(charges[..|charges| - 1], accountNumber) + [ChargeJson(charges[|charges| - 1], accountNumber)]
  }

  /** `get_payment_information`. */
  function PaymentInformationJson(s: ShipmentDoc, settings: Settings): (r: Payload)
    ensures r.Obj? && r.fields.Keys == {ShipmentCharge}
    ensures r.fields[ShipmentCharge] == Arr(ShipmentChargeList(s.charges, settings.accountNumber))
  {
    Obj(map[ShipmentCharge := Arr(ShipmentChargeList(s.charges, settings.accountNumber))])
  }

  /** `get_service`: the service code, null when the service is not in the table. */
  function ServiceJson(s: ShipmentDoc): (r: Payload)
    ensures r.Obj? && r.fields.Keys == {Code}
    ensures r.fields[Code].Null? <==> s.service !in Services
    ensures s.service in Services ==> r.fields[Code] == Str(Services[s.service])
  {
    Obj(map[Code := FromOption(ServiceCode(s.service))])
  }

  /** One entry of `Package`. */
  function PackageJson(p: PackageRow, format: WeightFormat): Payload
  {
    Obj(map[
      Packaging := Obj(map[Code := FromOption(PackageTypeCode(p.packageType))]),
      PackageWeight := Obj(map[
        UnitOfMeasurement := Obj(map[Code := FromOption(WeightUomCode(p.weightUom))]),
        Weight := Str(format(p.weight))
      ])
    ])
  }

  /** `get_package`: one entry per package, in order, with its packaging code, unit code and weight text. */
  function PackageList(packages: seq<PackageRow>, format: WeightFormat): (r: seq<Payload>)
    ensures |r| == |packages|
    ensures forall i :: 0 <= i < |packages| ==> r[i] == PackageJson(packages[i], format)
    ensures forall i :: 0 <= i < |packages| ==>
      && r[i].Obj? && r[i].fields.Keys == {Packaging, PackageWeight}
      && r[i].fields[Packaging] == Obj(map[Code := FromOption(PackageTypeCode(packages[i].packageType))])
      && r[i].fields[PackageWeight] == Obj(map[
           UnitOfMeasurement := Obj(map[Code := FromOption(WeightUomCode(packages[i].weightUom))]),
           Weight := Str(format(packages[i].weight))
         ])
  {
    if packages == [] then []
    else PackageList(packages[..|packages| - 1], format) + [PackageJson(packages[|packages| - 1], format)]
  }

  /** A charge entry: exactly Type and BillShipper; Type is null on a table miss, else the table's code. */
  lemma ChargeEntry(c: ChargeRow, accountNumber: Option<string>)
    ensures ChargeJson(c, accountNumber).Obj? && ChargeJson(c, accountNumber).fields.Keys == {Type, BillShipper}
    ensures ChargeJson(c, accountNumber).fields[Type].Null? <==> c.chargeType !in ChargeTypes
    ensures c.chargeType in ChargeTypes ==> ChargeJson(c, accountNumber).fields[Type] == Str(ChargeTypes[c.chargeType])
    ensures ChargeJson(c, accountNumber).fields[BillShipper] == Obj(map[AccountNumber := FromOption(accountNumber)])
  {
  }

  /**
   * A package entry: exactly Packaging and PackageWeight; the packaging code is null on a
   * table miss, else the table's code; the weight holds its unit and its text.
   */
  lemma PackageEntry(p: PackageRow, format: WeightFormat)
    ensures PackageJson(p, format).Obj? && PackageJson(p, format).fields.Keys == {Packaging, PackageWeight}
    ensures var packaging := PackageJson(p, format).fields[Packaging];
      && packaging.Obj? && packaging.fields.Keys == {Code}
      && (packaging.fields[Code].Null? <==> p.packageType !in PackageTypes)
      && (p.packageType in PackageTypes ==> packaging.fields[Code] == Str(PackageTypes[p.packageType]))
    ensures var weight := PackageJson(p, format).fields[PackageWeight];
      && weight.Obj? && weight.fields.Keys == {UnitOfMeasurement, Weight}
      && weight.fields[Weight] == Str(format(p.weight))
      && weight.fields[UnitOfMeasurement] == Obj(map[Code := FromOption(WeightUomCode(p.weightUom))])
  {
  }

  /** The dict `get_shipment` assembles from its five parts, plus Description when the description is non-empty. */
  function ShipmentObject(shipper: Payload, shipTo: Payload, payment: Payload, service: Payload, packages: Payload, description: string)
    : (r: Payload)
    ensures r.Obj?
    ensures r.fields.Keys == {Shipper, ShipTo, PaymentInformation, Service, Package}
      + (if Truthy(description) then {Description} else {})
    ensures Truthy(description) ==> r.fields[Description] == Str(description)
    ensures r.fields[Shipper] == shipper && r.fields[ShipTo] == shipTo
    ensures r.fields[PaymentInformation] == payment && r.fields[Service] == service
    ensures r.fields[Package] == packages
  {
    var shipment := map[
      Shipper := shipper,
      ShipTo := shipTo,
      PaymentInformation := payment,
      Service := service,
      Package := packages
    ];
    if Truthy(description) then Obj(shipment[Description := Str(description)]) else Obj(shipment)
  }

  /** `get_shipment`: five keys always, Description only when the description is non-empty. */
  function ShipmentJson(s: ShipmentDoc, settings: Settings, format: WeightFormat): (r: Payload)
    ensures r.Obj?
    ensures r.fields.Keys == {Shipper, ShipTo, PaymentInformation, Service, Package}
      + (if Truthy(s.description) then {Description} else {})
    ensures Truthy(s.description) ==> r.fields[Description] == Str(s.description)
    ensures r.fields[Shipper] == ShipperJson(s, settings)
    ensures r.fields[ShipTo] == ShipToJson(s)
    ensures r.fields[PaymentInformation] == PaymentInformationJson(s, settings)
    ensures r.fields[Service] == ServiceJson(s)
    ensures r.fields[Package] == Arr(PackageList(s.packages, format))
  {
    ShipmentObject(
      ShipperJson(s, settings),
      ShipToJson(s),
      PaymentInformationJson(s, settings),
      ServiceJson(s),
      Arr(PackageList(s.packages, format)),
      s.description)
  }

  /**
   * The dict `get_shipment_request` returns: ShipmentRequest holding Request and Shipment.
   * The label and receipt specifications sit behind `if False` and are never added.
   */
  function ShipmentRequestObject(request: Payload, shipment: Payload): (r: Payload)
    ensures r.Obj? && r.fields.Keys == {ShipmentRequest}
    ensures r.fields[ShipmentRequest].Obj?
    ensures r.fields[ShipmentRequest].fields.Keys == {Request, Shipment}
    ensures r.fields[ShipmentRequest].fields[Request] == request
    ensures LabelSpecification !in r.fields[ShipmentRequest].fields
    ensures ReceiptSpecification !in r.fields[ShipmentRequest].fields
    ensures r.fields[ShipmentRequest].fields[Shipment] == shipment
  {
    Obj(map[ShipmentRequest := Obj(map[Request := request, Shipment := shipment])])
  }

  /** `get_shipment_request`: exactly one top-level key; never a label or receipt specification. */
  function ShipmentRequestJson(s: ShipmentDoc, settings: Settings, format: WeightFormat): (r: Payload)
    ensures r.Obj? && r.fields.Keys == {ShipmentRequest}
    ensures r.fields[ShipmentRequest].Obj?
    ensures r.fields[ShipmentRequest].fields.Keys == {Request, Shipment}
    ensures LabelSpecification !in r.fields[ShipmentRequest].fields
    ensures ReceiptSpecification !in r.fields[ShipmentRequest].fields
    ensures r.fields[ShipmentRequest].fields[Request] == RequestJson(s, settings)
    ensures r.fields[ShipmentRequest].fields[Shipment] == ShipmentJson(s, settings, format)
  {
    ShipmentRequestObject(RequestJson(s, settings), ShipmentJson(s, settings, format))
  }

  /** The payment part bills every charge to the shipper part's account number. */
  lemma PaymentBillsShipperAccount(s: ShipmentDoc, settings: Settings)
    ensures
      var number := ShipperJson(s, settings).fields[ShipperNumber];
      var items := PaymentInformationJson(s, settings).fields[ShipmentCharge].items;
      && |items| == |s.charges|
      && forall i :: 0 <= i < |items| ==>
           && items[i].Obj? && BillShipper in items[i].fields
           && items[i].fields[BillShipper].Obj? && AccountNumber in items[i].fields[BillShipper].fields
           && items[i].fields[BillShipper].fields[AccountNumber] == number
  {
    var items := ShipmentChargeList(s.charges, settings.accountNumber);
    assert PaymentInformationJson(s, settings).fields[ShipmentCharge].items == items;
  }

  /** In a built request, every charge bills the account number that identifies the shipper. */
  lemma ChargesBillShipperAccount(s: ShipmentDoc, settings: Settings, format: WeightFormat)
    ensures
      var shipment := ShipmentRequestJson(s, settings, format).fields[ShipmentRequest].fields[Shipment];
      && shipment.Obj? && Shipper in shipment.fields && PaymentInformation in shipment.fields
      && shipment.fields[Shipper].Obj? && ShipperNumber in shipment.fields[Shipper].fields
      && shipment.fields[PaymentInformation].Obj? && ShipmentCharge in shipment.fields[PaymentInformation].fields
      && shipment.fields[PaymentInformation].fields[ShipmentCharge].Arr?
      && var number := shipment.fields[Shipper].fields[ShipperNumber];
         var items := shipment.fields[PaymentInformation].fields[ShipmentCharge].items;
         && |items| == |s.charges|
         && forall i :: 0 <= i < |items| ==>
              && items[i].Obj? && BillShipper in items[i].fields
              && items[i].fields[BillShipper].Obj? && AccountNumber in items[i].fields[BillShipper].fields
              && items[i].fields[BillShipper].fields[AccountNumber] == number
  {
    var shipment := ShipmentJson(s, settings, format);
    assert ShipmentRequestJson(s, settings, format).fields[ShipmentRequest].fields[Shipment] == shipment;
    assert Shipper in shipment.fields && PaymentInformation in shipment.fields;
    assert shipment.fields[Shipper] == ShipperJson(s, settings);
    assert shipment.fields[PaymentInformation] == PaymentInformationJson(s, settings);
    PaymentBillsShipperAccount(s, settings);
  }
}

=== FILE: wrappers.dfy ===
/** Optional values: the model's stand-in for Python's `None`. */
module Wrappers {

  datatype Option<+T> = None | Some(value: T) {

    predicate IsFailure() {
      None?
    }

    function PropagateFailure<U>(): Option<U>
      requires None?
    {
      None
    }

    function Extract(): T
      requires Some?
    {
      value
    }

    /** Returns the value in Some, or `default` for None. */
    function GetOr(default: T): T {
      match this
      case Some(v) => v
      case None => default
    }
  }

  /** Python's `dict.get(key)`: the value stored under `key`, or None when the key is absent. */
  function Get<K, V>(m: map<K, V>, key: K): (r: Option<V>)
    ensures r.Some? <==> key in m
    ensures r.Some? ==> r.value == m[key]
  {
    if key in m then Some(m[key]) else None
  }
}
